=== FILE: README.md ===
# UnoApp1 retail client — a Dafny model of its decision rules

UnoApp1 is a point-of-sale client: it browses a remote product catalogue,
keeps a shopping cart offline in SQLite and talks to a retail API through a
chain of HTTP delegating handlers that attach a bearer token and log
traffic. This project models the logic that sits behind the UI and the HTTP
plumbing, as immutable datatypes and pure functions, and proves what that
logic promises:

- `catalog.dfy` and `productlist.dfy` (modules `Catalog`, `ProductList`):
  the product list view-model — its search filter, its empty-state flag and
  its busy-guarded load cycle, in which the awaited `GetProductsAsync` call
  becomes a `FetchOutcome` value and `LoadProductsAsync` becomes
  `Begin` followed by `Complete(outcome)`.
- `converters.dfy` (`Converters`): the four XAML value converters, including
  `ConvertBack`'s comma stripping and a `decimal.TryParse` over an ASCII
  grammar.
- `http.dfy`, `auth.dfy` (`Http`, `AuthHandlers`): the two bearer-token
  handlers, `AuthorizationHandler` (token from the in-memory provider) and
  `AuthHeaderHandler` (token from local settings), and how they differ.
  The next handler in the chain is an opaque function `Request -> Response`.
- `tokens.dfy` (`TokenStores`): `JwtTokenProvider` as a one-cell store and
  `TokenService` as one key (`"AuthToken"`) of the local-settings map, with
  an explicit "settings unavailable" state for the platform's access failures.
  Reads are pure functions of the store, so a read never changes it.
- `debuglog.dfy` (`DebugLog`): what `DebugHttpHandler` writes — the masked
  Authorization header, the 200-character response preview, the body lines —
  and that it forwards the request and returns the response untouched.
- `cart.dfy` (`Cart`): the `CartItem` row, its derived `Subtotal`, the
  schema `AppDbContext` declares (lengths, `decimal(18, 2)`, key `Id`) and a
  table keyed by `Id`.
- `scenarios.dfy` (`Scenarios`): a request sent without a token, answered
  with 401, ends in the session-expired message with the list unchanged.
- `values.dfy`, `text.dfy`, `seqs.dfy` (`Values`, `Text`, `Seqs`): boxed
  `object` values and nullable references, the .NET string rules the code
  relies on (`IsNullOrWhiteSpace`, `ToLowerInvariant`, `Contains`, `Join`,
  `Replace`) and LINQ `Where` as an order-preserving filter.

Modelling choices: a C# `null` is `Option.None`; `decimal` is `real`;
`ToLowerInvariant`/`ToLower` lower-case ASCII letters only;
`char.IsWhiteSpace` is the full Unicode White_Space set; the culture-dependent
`"N0"` formatting is a function parameter of `DecimalToString`.

Two points the code settles: a failed load is told apart by four catch
clauses with four messages (401, network, any other API error, anything
else); and of the two bearer-token handlers only `AuthorizationHandler`
keeps an Authorization header the request already has, while
`AuthHeaderHandler` overwrites it. The model proves that difference.

## Model

| member | source | states |
|---|---|---|
| Seqs.Keep | UnoApp1/UnoApp1/Presentation/ProductListViewModel.cs:39-42 | `Where` keeps exactly the elements of the input that satisfy the predicate, and never more elements than the input has |
| Seqs.KeepIsOrderedSubsequence | UnoApp1/UnoApp1/Presentation/ProductListViewModel.cs:39-42 | the kept elements are picked by strictly increasing positions of the input, and a position is picked exactly when its element satisfies the predicate (order kept, nothing dropped or duplicated) |
| Text.ContainsIffOccurs | UnoApp1/UnoApp1/Presentation/ProductListViewModel.cs:40-42 | the substring test holds exactly when the needle occurs at some position of the haystack (the empty needle occurs everywhere) |
| Catalog.FilteredProducts | UnoApp1/UnoApp1/Presentation/ProductListViewModel.cs:31-43 | a null, empty or all-white-space query returns the product list itself; any other query keeps exactly the products whose lower-cased name, barcode or category name contains the lower-cased query |
| Catalog.FilterIsOrderedSubsequence | UnoApp1/UnoApp1/Presentation/ProductListViewModel.cs:38-42 | for a non-blank query the filtered list is the order-preserving sub-sequence of the products that match |
| Catalog.FilterIgnoresQueryCase | UnoApp1/UnoApp1/Presentation/ProductListViewModel.cs:35-38 | the result is the same for a query and its lower-cased form (blankness included) |
| Catalog.FilterIgnoresNameCase | UnoApp1/UnoApp1/Presentation/ProductListViewModel.cs:40 | whether a product matches does not depend on the case of its name |
| Catalog.NoCategoryMatchesOnlyNameOrBarcode | UnoApp1/UnoApp1/Presentation/ProductListViewModel.cs:42 | a product with a null category or category name matches exactly when its name or barcode does |
| Catalog.NameHitIsKept | UnoApp1/UnoApp1/Presentation/ProductListViewModel.cs:38-40 | a listed product whose name contains a non-blank query verbatim is in the filtered list |
| Catalog.QueryIsNotTrimmed | UnoApp1/UnoApp1/Presentation/ProductListViewModel.cs:35-38 | the query's spaces count: " tea" finds "Green tea" but not "tea" |
| ProductList.Initial | UnoApp1/UnoApp1/Presentation/ProductListViewModel.cs:17-26 | the field initialisers, before the automatic first load: idle, no error, an empty query and no products |
| ProductList.Constructed | UnoApp1/UnoApp1/Presentation/ProductListViewModel.cs:51-65 | the constructor starts the first load itself, so a new view-model is already busy with no error and no products, the placeholder is hidden, and a load triggered now (the page's `OnLoaded` one, UnoApp1/UnoApp1/Presentation/ProductListPage.xaml.cs:13-19) changes nothing |
| ProductList.FailureMessage | UnoApp1/UnoApp1/Presentation/ProductListViewModel.cs:138-185 | a 401 API failure gives the session-expired text, a transport failure the network text, any other API failure "API Error (status): message", anything else "An error occurred: message" |
| ProductList.MessageIdentifiesKind | UnoApp1/UnoApp1/Presentation/ProductListViewModel.cs:138-185 | the four messages are non-empty and pairwise distinguishable: the failure class can be read back from the message |
| ProductList.Begin | UnoApp1/UnoApp1/Presentation/ProductListViewModel.cs:90-91 | starting a load raises the busy flag, clears the error and leaves products and query alone |
| ProductList.Complete | UnoApp1/UnoApp1/Presentation/ProductListViewModel.cs:99-191 | finishing a load lowers the busy flag; a returned list replaces the products (null gives an empty list) and keeps the cleared error; a thrown failure keeps the products and stores its message |
| ProductList.Load | UnoApp1/UnoApp1/Presentation/ProductListViewModel.cs:74-192 | a load while busy changes nothing; otherwise it ends idle, with the returned list and no error on success, or the old list and the class's message on failure; the query is never touched |
| ProductList.SetSearchQuery | UnoApp1/UnoApp1/Presentation/ProductListViewModel.cs:22-24 | setting the query changes only the query |
| ProductList.IsEmpty | UnoApp1/UnoApp1/Presentation/ProductListViewModel.cs:49 | the placeholder is only ever shown over an empty filtered list and never beside an error message; `EmptyAfterLoad` states exactly when it is shown |
| ProductList.NotEmptyWhileLoading | UnoApp1/UnoApp1/Presentation/ProductListViewModel.cs:49 | while a fetch is in flight the empty-state flag is off |
| ProductList.EmptyAfterLoad | UnoApp1/UnoApp1/Presentation/ProductListViewModel.cs:49 | after a completed load the empty state is shown exactly when the fetch returned a null or empty list; no failure ever shows it |
| ProductList.ReloadDoesNotDuplicate | UnoApp1/UnoApp1/Presentation/ProductListViewModel.cs:111-127 | loading the same list twice leaves it once, not twice |
| ProductList.SecondTriggerDropped | UnoApp1/UnoApp1/Presentation/ProductListViewModel.cs:79-84 | a load triggered during a load changes nothing, and the first load then ends as if the second had not been triggered |
| ProductList.BlankQueryShowsLoadedList | UnoApp1/UnoApp1/Presentation/ProductListViewModel.cs:35-36 | with a blank query the filtered view after a successful load is exactly the returned list |
| ProductList.FailureKeepsFilteredView | UnoApp1/UnoApp1/Presentation/ProductListViewModel.cs:138-185 | a failed load leaves the filtered view as it was |
| Converters.EmptyToCollapsed | UnoApp1/UnoApp1/Converters/ValueConverters.cs:48-55 | the result is Visible exactly for a string holding some non-white-space character; null, other types and blank strings are Collapsed |
| Converters.TrueToVisible | UnoApp1/UnoApp1/Converters/ValueConverters.cs:71-78 | Visible exactly for the boxed `true`; `false` and non-booleans are Collapsed |
| Converters.TrueToCollapsed | UnoApp1/UnoApp1/Converters/ValueConverters.cs:94-101 | Collapsed exactly for the boxed `true`; `false` and non-booleans are Visible |
| Converters.BooleanConvertersComplementary | UnoApp1/UnoApp1/Converters/ValueConverters.cs:71-101 | for every input, boolean or not, the two boolean converters return opposite visibilities |
| Converters.DecimalToString | UnoApp1/UnoApp1/Converters/ValueConverters.cs:12-27 | decimals, doubles and ints go to the "N0" formatter; null gives "", a string itself, a boolean "True"/"False", any other value its own text |
| Converters.FallbackIgnoresFormatter | UnoApp1/UnoApp1/Converters/ValueConverters.cs:12-27 | a value that is not a decimal, double or int never reaches the "N0" formatter: its text is the same whatever formatter is supplied |
| Converters.ConvertBack | UnoApp1/UnoApp1/Converters/ValueConverters.cs:32-37 | total: a non-string or a string that does not parse after removing commas gives 0, a parseable one its value |
| Converters.ConvertBackIgnoresCommas | UnoApp1/UnoApp1/Converters/ValueConverters.cs:32 | converting a string back equals converting it with every comma removed |
| Converters.ParseDecimal | UnoApp1/UnoApp1/Converters/ValueConverters.cs:32 | text without a decimal digit never parses, and a negative result needs a minus sign in the text |
| Converters.TrimStartIsSuffix | UnoApp1/UnoApp1/Converters/ValueConverters.cs:32 | skipping leading white space leaves a suffix of the text |
| Converters.TrimEndIsPrefix | UnoApp1/UnoApp1/Converters/ValueConverters.cs:32 | dropping trailing white space leaves a prefix of the text |
| Converters.ConvertBackReadsGroupedDigits | UnoApp1/UnoApp1/Converters/ValueConverters.cs:32-34 | a natural number written in digits with a comma before each group of three, with or without a leading minus, converts back to that number |
| Converters.ParseDecimalDigits | UnoApp1/UnoApp1/Converters/ValueConverters.cs:32 | the parser reads a plain digit string as the number it denotes |
| Converters.ConvertBackRejectsText | UnoApp1/UnoApp1/Converters/ValueConverters.cs:32-37 | a string that is not a number ("12a") converts back to 0 |
| TokenStores.NewProvider | UnoApp1/UnoApp1/Services/Endpoints/JwtTokenProvider.cs:8 | a new provider reads as null |
| TokenStores.GetTokenAsync | UnoApp1/UnoApp1/Services/Endpoints/JwtTokenProvider.cs:10-11 | the read returns the whole state of the provider, so it changes nothing |
| TokenStores.SetTokenAsync | UnoApp1/UnoApp1/Services/Endpoints/JwtTokenProvider.cs:13-17 | the next read returns the value set, null included |
| TokenStores.ClearTokenAsync | UnoApp1/UnoApp1/Services/Endpoints/JwtTokenProvider.cs:19-23 | the next read returns null |
| TokenStores.LastWriteWins | UnoApp1/UnoApp1/Services/Endpoints/JwtTokenProvider.cs:15 | two sets in a row equal the second set alone |
| TokenStores.ClearIsSetNull | UnoApp1/UnoApp1/Services/Endpoints/JwtTokenProvider.cs:19-22 | clearing is the same as setting null |
| TokenStores.StoredToken | UnoApp1/UnoApp1/Services/TokenService.cs:44-45 | the token is the "AuthToken" entry when that entry is a string; a missing, null or non-string entry, or an unreachable store, reads as null |
| TokenStores.GetToken | UnoApp1/UnoApp1/Services/TokenService.cs:40-59 | on reachable settings a string entry under "AuthToken" reads back as itself and a missing key reads as null; a token is only read from reachable settings, and saving it back leaves them exactly as they were |
| TokenStores.SaveToken | UnoApp1/UnoApp1/Services/TokenService.cs:22-35 | saving fails exactly when the store is unreachable; otherwise the entry holds the token and every other key is unchanged |
| TokenStores.ClearToken | UnoApp1/UnoApp1/Services/TokenService.cs:64-77 | clearing fails exactly when the store is unreachable; otherwise the entry is gone and every other key is unchanged |
| TokenStores.HasToken | UnoApp1/UnoApp1/Services/TokenService.cs:82-86 | true exactly when the read returns a non-null, non-empty string, which is then the stored entry |
| TokenStores.GetAfterSave | UnoApp1/UnoApp1/Services/TokenService.cs:22-52 | reading after a save returns the saved token, and `HasToken` then holds exactly when it is non-empty |
| TokenStores.GetAfterClear | UnoApp1/UnoApp1/Services/TokenService.cs:64-86 | after a clear the read is null and `HasToken` is false |
| TokenStores.NonStringEntryReadsNull | UnoApp1/UnoApp1/Services/TokenService.cs:45 | a non-string value under the key is no token |
| TokenStores.StorageFailureBehaviour | UnoApp1/UnoApp1/Services/TokenService.cs:24-76 | when the store cannot be reached the read is null and `HasToken` false, while save and clear report the failure |
| TokenStores.SaveTwiceKeepsLast | UnoApp1/UnoApp1/Services/TokenService.cs:27 | a second save replaces the first and other keys survive both |
| AuthHandlers.AttachFromProvider | UnoApp1/UnoApp1/Services/Endpoints/AuthorizationHandler.cs:15-17 | an existing header is kept, a null or blank token changes nothing, and otherwise the request gains `Bearer <token>` with nothing else changed |
| AuthHandlers.AuthorizationSend | UnoApp1/UnoApp1/Services/Endpoints/AuthorizationHandler.cs:12-20 | the handler forwards one request, the one the header rule produced from the provider's token, and returns the inner handler's response to it |
| AuthHandlers.AttachFromProviderIdempotent | UnoApp1/UnoApp1/Services/Endpoints/AuthorizationHandler.cs:15-17 | applying the header rule twice equals applying it once |
| AuthHandlers.ProviderNeverOverwrites | UnoApp1/UnoApp1/Services/Endpoints/AuthorizationHandler.cs:15 | an existing Authorization header survives whatever the token |
| AuthHandlers.AttachFromSettings | UnoApp1/UnoApp1/Services/Endpoints/AuthHeaderHandler.cs:20-40 | a non-empty string under "AuthToken" becomes `Bearer <token>`, replacing any header; a missing, null, empty or non-string entry, or a settings failure, leaves the request as it is |
| AuthHandlers.AuthHeaderSend | UnoApp1/UnoApp1/Services/Endpoints/AuthHeaderHandler.cs:16-43 | the handler forwards one request in every case, the unchanged one when the settings fail, and returns the inner handler's response to it |
| AuthHandlers.BlankTokenDifference | UnoApp1/UnoApp1/Services/Endpoints/AuthHeaderHandler.cs:26 | a non-empty all-white-space token is attached from settings but not from the provider |
| AuthHandlers.ExistingHeaderDifference | UnoApp1/UnoApp1/Services/Endpoints/AuthHeaderHandler.cs:29 | an existing header is kept by the provider handler and replaced by the settings handler |
| AuthHandlers.HandlersAgreeOnFreshRequest | UnoApp1/UnoApp1/Services/Endpoints/AuthorizationHandler.cs:15-17 | with a non-blank token and no header yet, both handlers produce the same request |
| AuthHandlers.SavedTokenIsSent | UnoApp1/UnoApp1/Services/Endpoints/AuthHeaderHandler.cs:24-29 | after `SaveToken(t)` with t non-empty the forwarded request carries `Bearer t` |
| AuthHandlers.ClearedTokenIsNotSent | UnoApp1/UnoApp1/Services/Endpoints/AuthHeaderHandler.cs:24-35 | after `ClearToken` the forwarded request is the original one |
| AuthHandlers.ProviderTokenIsSent | UnoApp1/UnoApp1/Services/Endpoints/AuthorizationHandler.cs:14-17 | after setting a non-blank token, a request without a header goes out with `Bearer <token>` |
| Http.AllHeaderNamesDistinct | UnoApp1/UnoApp1/Services/Endpoints/DebugHandler.cs:29 | in a well-formed request (case-insensitively distinct names, Authorization only in the typed field) the enumerated headers have distinct names, so the dictionary built from them by name never collides |
| AuthHandlers.HandlersKeepWellFormed | UnoApp1/UnoApp1/Services/Endpoints/AuthHeaderHandler.cs:29 | both handlers change only the typed Authorization header, so a well-formed request stays well formed |
| DebugLog.MaskedValue | UnoApp1/UnoApp1/Services/Endpoints/DebugHandler.cs:29-31 | a header named "authorization" in any letter case is logged as "Bearer ***", any other with its values joined by ", " |
| DebugLog.RequestHeaderLines | UnoApp1/UnoApp1/Services/Endpoints/DebugHandler.cs:26-34 | no headers give no lines; otherwise the "Request Headers:" title and then, for each header in turn, a line with its name and its masked value |
| DebugLog.EveryHeaderLogged | UnoApp1/UnoApp1/Services/Endpoints/DebugHandler.cs:26-34 | every header of the request, the typed Authorization header included, reaches the request log under its own name with its masked value |
| DebugLog.ResponseLogSeesOnlyUri | UnoApp1/UnoApp1/Services/Endpoints/DebugHandler.cs:54-103 | the response log depends on the request only through its URI: request headers and credentials never reach it |
| DebugLog.Preview | UnoApp1/UnoApp1/Services/Endpoints/DebugHandler.cs:65 | a body of at most 200 characters is previewed whole; a longer one as its first 200 characters followed by "...", 203 in all |
| DebugLog.BodyLine | UnoApp1/UnoApp1/Services/Endpoints/DebugHandler.cs:41-45 | a null or empty body writes no line, any other exactly one |
| DebugLog.ResponseHeaderLines | UnoApp1/UnoApp1/Services/Endpoints/DebugHandler.cs:83-91 | no headers give no lines; otherwise the "Response Headers:" title and then one unmasked line per header, in order |
| DebugLog.UriLine | UnoApp1/UnoApp1/Services/Endpoints/DebugHandler.cs:76-80 | the URI line is written exactly when the request has a URI |
| DebugLog.ResponseLog | UnoApp1/UnoApp1/Services/Endpoints/DebugHandler.cs:54-103 | a success writes at most one line, the preview, and only for a non-empty body; a failure starts with the URI (when there is one), shows every response header unmasked, and ends with the whole error body when it is non-empty |
| DebugLog.DebugSend | UnoApp1/UnoApp1/Services/Endpoints/DebugHandler.cs:13-108 | the request is forwarded unchanged and the inner handler's response is returned unchanged; only log lines are added |
| DebugLog.CredentialNeverLogged | UnoApp1/UnoApp1/Services/Endpoints/DebugHandler.cs:29-33 | the request log is the same whatever credential the Authorization header carries |
| DebugLog.AuthorizationAlwaysMasked | UnoApp1/UnoApp1/Services/Endpoints/DebugHandler.cs:31 | an authorization header's logged value does not depend on its values |
| DebugLog.OtherHeaderShowsValue | UnoApp1/UnoApp1/Services/Endpoints/DebugHandler.cs:29-31 | any other header with a single value is logged with that value verbatim |
| DebugLog.PreviewShape | UnoApp1/UnoApp1/Services/Endpoints/DebugHandler.cs:65 | the preview has at most 203 characters, starts with the body's first 200 (or all) characters, equals a body of at most 200, and differs from any body over 203 |
| DebugLog.EmptySuccessBodyNotLogged | UnoApp1/UnoApp1/Services/Endpoints/DebugHandler.cs:60-69 | a successful response with a null or empty body writes no preview |
| Cart.NewCartItem | UnoApp1/UnoApp1/Models/CartItem.cs:8-15 | a new row has empty name, unit and barcode, a null category name and zero numbers |
| Cart.Subtotal | UnoApp1/UnoApp1/Models/CartItem.cs:21 | the subtotal is zero exactly when the price or the quantity is, and not negative for a non-negative price and quantity |
| Cart.WithQuantity | UnoApp1/UnoApp1/Models/CartItem.cs:12 | setting the quantity changes the quantity and nothing else |
| Cart.SubtotalFollowsQuantity | UnoApp1/UnoApp1/Models/CartItem.cs:21 | after setting the quantity to q the subtotal is price × q; it adds up over split quantities; quantity 0 gives 0 |
| Cart.SubtotalCanBeNegative | UnoApp1/UnoApp1/Models/CartItem.cs:12-21 | a negative quantity gives a negative subtotal: no sign is promised |
| Cart.PriceFitsIffWholeCents | UnoApp1/UnoApp1/Data/AppDbContext.cs:26 | a price fits `decimal(18, 2)` exactly when it is a whole number of cents below 10^18 cents in magnitude (at most 16 integer digits) |
| Cart.FitsDecimal | UnoApp1/UnoApp1/Data/AppDbContext.cs:26 | with scale 0 only whole numbers fit |
| Cart.ValidRow | UnoApp1/UnoApp1/Data/AppDbContext.cs:25-29 | a row that meets the declared lengths and precision has a price in whole cents |
| Cart.QuantityIsUnconstrained | UnoApp1/UnoApp1/Data/AppDbContext.cs:22-30 | the schema says nothing about the quantity: changing it never changes validity |
| Cart.SchemaExamples | UnoApp1/UnoApp1/Data/AppDbContext.cs:25-29 | a new row is valid, a 200-character name is allowed and a 201-character one is not, and a third fractional digit is refused |
| Cart.Add | UnoApp1/UnoApp1/Data/AppDbContext.cs:24 | a row with Id 0 is always added, under a key above every existing one, and the row records that key; any other Id is refused exactly when taken and otherwise added under itself; every reachable table stays well keyed with no key above its counter |
| Cart.EmptyDb | UnoApp1/UnoApp1/Data/AppDbContext.cs:11 | a new table is empty and consistent |
| Cart.TwoNewRowsBothKept | UnoApp1/UnoApp1/Data/AppDbContext.cs:24 | two new rows both left at Id 0 are both kept, under two different generated keys, and every earlier row survives |
| Cart.KeysAreUnique | UnoApp1/UnoApp1/Data/AppDbContext.cs:24 | in a table keyed by Id two different entries never hold rows with the same Id |
| Cart.AddKeepsRowsValid | UnoApp1/UnoApp1/Data/AppDbContext.cs:24-29 | adding a valid row to a table of valid rows, with its key given or generated, leaves only valid rows |
| Scenarios.MissingTokenLeadsToSessionExpired | UnoApp1/UnoApp1/Presentation/ProductListViewModel.cs:138-146 | with no token the request leaves without an Authorization header, and a 401 answer ends the load idle, with the session-expired message, the old products and no empty-state placeholder |
| Scenarios.ClearedProviderSendsNoHeader | UnoApp1/UnoApp1/Services/Endpoints/AuthorizationHandler.cs:14-19 | after clearing the provider a request without a header is forwarded unchanged |

## Left out

- Asynchrony and the busy-flag race: `LoadProductsAsync` is modelled sequentially as `Begin` then `Complete`; two triggers in the same tick are not modelled.
- The HTTP transport and Refit (`IRetailApiService`, `base.SendAsync`): the remote call is a `FetchOutcome` value and the inner handler an opaque function.
- DebugLog.DebugSend: the inner handler is taken not to modify the request it is given, so the failure log's URI line uses the URI as sent. In .NET the redirect stage rewrites `RequestUri` (and drops the Authorization header) on the same request object, so a redirected call that then fails logs its final URI there; that in-place rewrite is not modelled.
- Logging and timing: the view-model's and token service's `ILogger` calls, `Debug.WriteLine`, stopwatches, the debug handler's separator, method/URI and status/timing lines, and its `#if DEBUG` switch.
- DebugLog.RequestHeaderLines: lists the Authorization header first; the enumeration order of .NET's header collection is not modelled.
- Converters.DecimalToString: the "N0" formatting of decimals, doubles and ints is culture-dependent and rounds, so it is a parameter; no round trip between `Convert` and `ConvertBack` is claimed.
- Converters.ConvertBack: `decimal.TryParse` is modelled over an ASCII grammar (surrounding white space, a leading sign, digits with one optional point); culture settings, thousands separators other than the removed commas, trailing signs, trailing `'\0'` characters (which .NET accepts and the model rejects) and the 28-digit decimal range are not.
- Text.Lower: `ToLowerInvariant` and `ToLower` are modelled as ASCII lower-casing; Unicode case mapping is not.
- Decimal overflow: prices and subtotals are unbounded reals.
- ProductList.FailureMessage: the text form of the API status code (an enum name) is taken from the outcome as given rather than computed from the code.
- A product whose name or barcode is null (which would make the filter throw) is not modelled: both are non-null strings.
- Cart.Add: the EF Core/SQLite runtime is modelled only as key handling: an `Id` of 0 is store-generated from SQLite's AUTOINCREMENT counter, any other `Id` is inserted as given. Change tracking, the temporary key EF assigns before `SaveChanges`, transactions, updates and deletes are not modelled. SQLite does not enforce the length limits, which are stated as the `ValidRow` predicate rather than as rejections. That the context declares exactly one table, `CartItems`, is structural and has no contract.
- ProductList.Complete: a fetched list is a list of non-null products. A JSON `null` entry is not modelled. Among the first three entries it would throw inside the logging loop, after `Products.Clear()` and the partial `Add` calls, leaving a partial list beside "An error occurred: ..." (so neither the success nor the failure contract would describe that load). Later in the list it would be kept, and a non-blank search would then throw.
- DebugLog.Preview: lengths are counted in Unicode characters, while `String.Length` and `Substring(0, 200)` count UTF-16 code units. A body with characters outside the Basic Multilingual Plane is therefore cut later in the model than in .NET, and a cut that splits a surrogate pair cannot be represented.
- `CartItem.AddedAt` (defaults to the current time) is left out.
- Cart.ValidRow: the maximum lengths count Unicode characters, while .NET string lengths count UTF-16 code units; a name with characters outside the Basic Multilingual Plane is longer in .NET than in the model.
- 32-bit integers: `Id`, `ProductId`, `Quantity` and the HTTP status are `int` in C# and unbounded here; in particular, key generation past `int.MaxValue` is not modelled.
- `SaveToken` is given a non-null token, as its signature declares.
- TokenStores.SaveToken: failure is modelled per store (reachable or not); a write the platform refuses because of the value itself, such as a setting over the 8 KB limit of local settings, is not modelled.
- UI, navigation and dependency-injection glue (`MainViewModel`, `ProductListPage`), and the data-only `OrderModel`, `ProductDto` and supplier records.

=== FILE: auth.dfy ===
/** The two bearer-token handlers: `AuthorizationHandler` (token from the
    in-memory provider) and `AuthHeaderHandler` (token from local settings). */
module AuthHandlers {
  import opened Values
  import opened Text
  import opened Http
  import opened TokenStores

  // ---- AuthorizationHandler ----

  /** The header decision of `AuthorizationHandler.SendAsync`: attach
      `Bearer <token>` only if the token is not null or blank and the request
      has no Authorization header yet. Nothing else in the request changes. */
  function AttachFromProvider(token: Option<string>, req: Request): (r: Request)
    ensures req.authorization.Some? ==> r == req
    ensures IsNullOrWhiteSpace(token) ==> r == req
    ensures !IsNullOrWhiteSpace(token) && req.authorization.None? ==>
      r == req.(authorization := Some(Bearer(token.value)))
  {
    if !IsNullOrWhiteSpace(token) && req.authorization.None?
    then req.(authorization := Some(Bearer(token.value)))
    else req
  }

  /** `AuthorizationHandler.SendAsync`: read the provider, decide, forward once. */
  function AuthorizationSend(provider: TokenCell, req: Request, inner: Inner): (r: Exchange)
    ensures r.response == inner(r.forwarded)
    ensures r.forwarded == AttachFromProvider(GetTokenAsync(provider), req)
  {
    var forwarded := AttachFromProvider(GetTokenAsync(provider), req);
    Exchange(forwarded, inner(forwarded))
  }

  /** Both handlers touch only the typed Authorization header, so a
      well-formed request stays well formed. */
  lemma HandlersKeepWellFormed(token: Option<string>, st: Storage, req: Request)
    requires WellFormed(req)
    ensures WellFormed(AttachFromProvider(token, req))
    ensures WellFormed(AttachFromSettings(st, req))
  {
  }

  /** Running the handler twice has the effect of running it once: after the
      first pass a header exists (or the token is unusable), so the second
      pass changes nothing. */
  lemma AttachFromProviderIdempotent(token: Option<string>, req: Request)
    ensures AttachFromProvider(token, AttachFromProvider(token, req)) == AttachFromProvider(token, req)
  {
  }

  /** An existing header is never overwritten, whatever the token. */
  lemma ProviderNeverOverwrites(token: Option<string>, req: Request, h: AuthHeader)
    requires req.authorization == Some(h)
    ensures AttachFromProvider(token, req).authorization == Some(h)
  {
  }

  // ---- AuthHeaderHandler ----

  /** The header decision of `AuthHeaderHandler.SendAsync`: a non-empty string
      under "AuthToken" becomes `Bearer <token>`, replacing any existing
      header; a missing, null, empty or non-string entry, or a settings access
      failure (caught and logged), leaves the request as it is. */
  function AttachFromSettings(st: Storage, req: Request): (r: Request)
    ensures st.Unavailable? ==> r == req
    ensures st.Available? && !Lookup(st.values, TokenKey).Str? ==> r == req
    ensures st.Available? && Lookup(st.values, TokenKey) == Str("") ==> r == req
    ensures st.Available? && Lookup(st.values, TokenKey).Str? && |Lookup(st.values, TokenKey).s| > 0 ==>
      r == req.(authorization := Some(Bearer(Lookup(st.values, TokenKey).s)))
  {
    var token := StoredToken(st);
    if !IsNullOrEmpty(token) then req.(authorization := Some(Bearer(token.value))) else req
  }

  /** `AuthHeaderHandler.SendAsync`: decide, then forward once in every case. */
  function AuthHeaderSend(st: Storage, req: Request, inner: Inner): (r: Exchange)
    ensures r.response == inner(r.forwarded)
    ensures r.forwarded == AttachFromSettings(st, req)
    ensures st.Unavailable? ==> r.forwarded == req
  {
    var forwarded := AttachFromSettings(st, req);
    Exchange(forwarded, inner(forwarded))
  }

  // ---- how the two handlers differ and agree ----

  /** A non-empty all-white-space token is attached from settings but not
      from the provider. */
  lemma BlankTokenDifference(t: string, req: Request)
    requires |t| > 0 && IsBlank(t)
    requires req.authorization.None?
    ensures AttachFromProvider(Some(t), req) == req
    ensures AttachFromSettings(Available(map[TokenKey := Str(t)]), req).authorization == Some(Bearer(t))
  {
  }

  /** An existing header survives the provider handler but is replaced by
      the settings handler. */
  lemma ExistingHeaderDifference(t: string, req: Request)
    requires !IsBlank(t)
    requires req.authorization.Some? && req.authorization.value != Bearer(t)
    ensures AttachFromProvider(Some(t), req).authorization == req.authorization
    ensures AttachFromSettings(Available(map[TokenKey := Str(t)]), req).authorization == Some(Bearer(t))
  {
    assert |t| > 0;
  }

  /** With a usable token and no header yet, both handlers forward the same request. */
  lemma HandlersAgreeOnFreshRequest(t: string, values: map<string, Value>, req: Request)
    requires !IsBlank(t)
    requires Lookup(values, TokenKey) == Str(t)
    requires req.authorization.None?
    ensures AttachFromProvider(Some(t), req) == AttachFromSettings(Available(values), req)
  {
    assert |t| > 0;
  }

  /** The settings handler reads the entry `TokenService.SaveToken` writes:
      after saving a non-empty token, the forwarded request carries it. */
  lemma SavedTokenIsSent(st: Storage, t: string, req: Request, inner: Inner)
    requires st.Available?
    requires |t| > 0
    ensures SaveToken(st, t).Ok?
    ensures AuthHeaderSend(SaveToken(st, t).value, req, inner).forwarded.authorization == Some(Bearer(t))
  {
  }

  /** After `TokenService.ClearToken` the settings handler attaches nothing. */
  lemma ClearedTokenIsNotSent(st: Storage, req: Request, inner: Inner)
    requires st.Available?
    ensures ClearToken(st).Ok?
    ensures AuthHeaderSend(ClearToken(st).value, req, inner).forwarded == req
  {
  }

  /** The provider handler sends what the provider was last set to. */
  lemma ProviderTokenIsSent(c: TokenCell, t: string, req: Request, inner: Inner)
    requires !IsBlank(t)
    requires req.authorization.None?
    ensures AuthorizationSend(SetTokenAsync(c, Some(t)), req, inner).forwarded.authorization == Some(Bearer(t))
  {
  }
}

=== FILE: cart.dfy ===
/** The offline cart row (`CartItem`) and the schema the local database
    context declares for it (`AppDbContext.OnModelCreating`). */
module Cart {
  import opened Values

  /** One cart row. The `AddedAt` timestamp is left out. */
  datatype CartItem = CartItem(
    id: int,
    productId: int,
    productName: string,
    price: real,
    quantity: int,
    unit: string,
    barcode: string,
    categoryName: Option<string>)

  /** A row as `new CartItem()` leaves it. */
  function NewCartItem(): (c: CartItem)
    ensures c.productName == "" && c.unit == "" && c.barcode == "" && c.categoryName.None?
    ensures c.id == 0 && c.productId == 0 && c.price == 0.0 && c.quantity == 0
  {
    CartItem(0, 0, "", 0.0, 0, "", "", None)
  }

  /** The derived `Subtotal`: zero exactly when the price or the quantity is,
      and not negative for a non-negative price and quantity. */
  function Subtotal(c: CartItem): (r: real)
    ensures r == 0.0 <==> c.price == 0.0 || c.quantity == 0
    ensures c.price >= 0.0 && c.quantity >= 0 ==> r >= 0.0
  {
    c.price * c.quantity as real
  }

  /** Setting `Quantity`: only the quantity changes. */
  function WithQuantity(c: CartItem, q: int): (r: CartItem)
    ensures r.quantity == q
    ensures r.(quantity := c.quantity) == c
  {
    c.(quantity := q)
  }

  /** The subtotal follows the quantity: after setting the quantity to `q`
      it is price × q, and it adds up over split quantities. */
  lemma SubtotalFollowsQuantity(c: CartItem, q: int, a: int, b: int)
    ensures Subtotal(WithQuantity(c, q)) == c.price * q as real
    ensures Subtotal(WithQuantity(c, a + b)) == Subtotal(WithQuantity(c, a)) + Subtotal(WithQuantity(c, b))
    ensures Subtotal(WithQuantity(c, 0)) == 0.0
  {
  }

  /** A negative quantity gives a negative subtotal: nothing bounds it below. */
  lemma SubtotalCanBeNegative()
    ensures Subtotal(CartItem(1, 1, "Tea", 10.0, -2, "box", "", None)) == -20.0
  {
  }

  // ---- the declared schema ----

  const ProductNameMaxLength: nat := 200
  const UnitMaxLength: nat := 50
  const BarcodeMaxLength: nat := 100
  const CategoryNameMaxLength: nat := 100
  const PricePrecision: nat := 18
  const PriceScale: nat := 2

  /** `HasPrecision(precision, scale)`: at most `scale` fractional digits and
      at most `precision` digits in all. */
  predicate FitsDecimal(x: real, precision: nat, scale: nat)
    ensures FitsDecimal(x, precision, scale) && scale == 0 ==> x == x.Floor as real
  {
    var scaled := x * Pow10(scale) as real;
    scaled.Floor as real == scaled && -(Pow10(precision) as int) < scaled.Floor < Pow10(precision)
  }

  /** Every length and precision constraint the context declares for a row.
      A valid row's price is a whole number of cents. */
  predicate ValidRow(c: CartItem)
    ensures ValidRow(c) ==> exists k: int :: c.price == Cents(k)
  {
    PriceFitsIffWholeCents(c.price);
    && |c.productName| <= ProductNameMaxLength
    && FitsDecimal(c.price, PricePrecision, PriceScale)
    && |c.unit| <= UnitMaxLength
    && |c.barcode| <= BarcodeMaxLength
    && (c.categoryName.Some? ==> |c.categoryName.value| <= CategoryNameMaxLength)
  }

  /** The schema says nothing about the quantity. */
  lemma QuantityIsUnconstrained(c: CartItem, q: int)
    ensures ValidRow(c.(quantity := q)) == ValidRow(c)
  {
  }

  /** A price given in whole cents. */
  function Cents(k: int): real {
    k as real / 100.0
  }

  /** A price fits `decimal(18, 2)` exactly when it is a whole number of cents
      below 10^18 cents in magnitude, i.e. at most 16 integer digits. */
  lemma PriceFitsIffWholeCents(x: real)
    ensures FitsDecimal(x, PricePrecision, PriceScale) <==>
      exists k: int :: -(Pow10(18) as int) < k < Pow10(18) && x == Cents(k)
  {
    assert Pow10(2) == 100;
    var scaled := x * 100.0;
    if FitsDecimal(x, PricePrecision, PriceScale) {
      var k := scaled.Floor;
      assert x == Cents(k);
    }
    if exists k: int :: -(Pow10(18) as int) < k < Pow10(18) && x == Cents(k) {
      var k: int :| -(Pow10(18) as int) < k < Pow10(18) && x == Cents(k);
      assert scaled == k as real;
      assert scaled.Floor == k;
    }
  }

  /** A fresh row satisfies the schema, and the length bounds are inclusive. */
  lemma SchemaExamples()
    ensures ValidRow(NewCartItem())
    ensures ValidRow(NewCartItem().(price := Cents(1234), productName := seq(200, _ => 'x')))
    ensures !ValidRow(NewCartItem().(productName := seq(201, _ => 'x')))
    ensures !ValidRow(NewCartItem().(price := 0.125))
  {
    assert Pow10(2) == 100;
    assert (0.125 * 100.0).Floor == 12;
  }

  // ---- the table, keyed by `Id` ----

  /** The `CartItems` table: rows by key, and the AUTOINCREMENT counter SQLite
      keeps for an integer primary key (the largest key ever handed out). */
  datatype CartDb = CartDb(rows: map<int, CartItem>, sequence: int)

  /** Each row is filed under its own `Id`, so no two rows share one. */
  predicate WellKeyed(t: map<int, CartItem>) {
    forall id :: id in t ==> t[id].id == id
  }

  /** The state every reachable table is in: well keyed, and no key above the counter. */
  predicate Consistent(db: CartDb) {
    WellKeyed(db.rows) && db.sequence >= 0 && forall id :: id in db.rows ==> id <= db.sequence
  }

  /** A freshly created, empty table. */
  function EmptyDb(): (db: CartDb)
    ensures Consistent(db) && db.rows == map[]
  {
    CartDb(map[], 0)
  }

  datatype DbError = DuplicateKey(id: int)

  /** `CartItems.Add` followed by `SaveChanges`. `HasKey(e => e.Id)` on an
      `int` makes the key store-generated: a row whose `Id` is still 0 gets the
      next counter value, any other `Id` is inserted as given and is refused
      when it is already taken. The length and precision constraints are
      declarations, not checks, and are not applied. */
  function Add(db: CartDb, item: CartItem): (r: Result<CartDb, DbError>)
    ensures item.id != 0 ==> (r.Err? <==> item.id in db.rows)
    ensures item.id != 0 && r.Err? ==> r.error == DuplicateKey(item.id)
    ensures item.id != 0 && r.Ok? ==> r.value.rows == db.rows[item.id := item]
    ensures item.id == 0 && Consistent(db) ==>
      && r.Ok?
      && r.value.sequence !in db.rows
      && (forall id :: id in db.rows ==> id < r.value.sequence)
      && r.value.rows == db.rows[r.value.sequence := item.(id := r.value.sequence)]
    ensures Consistent(db) && r.Ok? ==> Consistent(r.value)
  {
    if item.id == 0 then
      var key := db.sequence + 1;
      if key in db.rows then Err(DuplicateKey(key))
      else Ok(CartDb(db.rows[key := item.(id := key)], key))
    else if item.id in db.rows then Err(DuplicateKey(item.id))
    else Ok(CartDb(db.rows[item.id := item], if item.id > db.sequence then item.id else db.sequence))
  }

  /** Two new rows, both left at `Id` 0, are both kept, under different keys,
      and every earlier row survives. */
  lemma TwoNewRowsBothKept(db: CartDb, a: CartItem, b: CartItem)
    requires Consistent(db)
    requires a.id == 0 && b.id == 0
    ensures Add(db, a).Ok?
    ensures Add(Add(db, a).value, b).Ok?
    ensures var db2 := Add(Add(db, a).value, b).value;
      && |db2.rows.Keys| == |db.rows.Keys| + 2
      && Add(db, a).value.sequence != db2.sequence
      && db2.rows[Add(db, a).value.sequence] == a.(id := Add(db, a).value.sequence)
      && db2.rows[db2.sequence] == b.(id := db2.sequence)
      && forall id :: id in db.rows ==> db2.rows[id] == db.rows[id]
  {
    var db1 := Add(db, a).value;
    var db2 := Add(db1, b).value;
    assert db1.rows.Keys == db.rows.Keys + {db1.sequence};
    assert db2.rows.Keys == db1.rows.Keys + {db2.sequence};
  }

  /** In a well-keyed table, distinct entries are distinct rows. */
  lemma KeysAreUnique(t: map<int, CartItem>, a: int, b: int)
    requires WellKeyed(t)
    requires a in t && b in t && a != b
    ensures t[a].id != t[b].id
  {
  }

  /** Adding a valid row to a table of valid rows leaves only valid rows,
      whether its key is given or generated. */
  lemma AddKeepsRowsValid(db: CartDb, item: CartItem)
    requires forall id :: id in db.rows ==> ValidRow(db.rows[id])
    requires ValidRow(item)
    ensures Add(db, item).Ok? ==>
      forall id :: id in Add(db, item).value.rows ==> ValidRow(Add(db, item).value.rows[id])
  {
  }
}

=== FILE: catalog.dfy ===
/** The remote catalogue records and the product list's search filter
    (`ProductListViewModel.FilteredProducts`). */
module Catalog {
  import opened Values
  import opened Text
  import opened Seqs

  /** A product category. The declared name is non-nullable, but the filter
      still guards against a null one, so the model keeps that case. */
  datatype Category = Category(categoryId: int, categoryName: Option<string>)

  /** A product as the remote API returns it. Creation time and supplier
      are not read by the core and are left out. */
  datatype Product = Product(
    productId: int,
    productName: string,
    price: real,
    barcode: string,
    unit: string,
    category: Option<Category>,
    categoryId: int,
    supplierId: int)

  /** The lower-cased category name, or null when the category or its name is. */
  function LoweredCategoryName(p: Product): Option<string> {
    if p.category.Some? && p.category.value.categoryName.Some?
    then Some(Lower(p.category.value.categoryName.value))
    else None
  }

  /** One product satisfies an already lower-cased query: its lower-cased name,
      barcode or category name contains the query. */
  predicate Matches(loweredQuery: string, p: Product) {
    || Contains(Lower(p.productName), loweredQuery)
    || Contains(Lower(p.barcode), loweredQuery)
    || (var c := LoweredCategoryName(p); c.Some? && Contains(c.value, loweredQuery))
  }

  /** The `Where` predicate for an already lower-cased query. */
  function QueryFilter(loweredQuery: string): Product -> bool {
    p => Matches(loweredQuery, p)
  }

  /** `FilteredProducts`: a null, empty or blank query shows the whole list;
      otherwise the query is lower-cased (not trimmed) and the products whose
      name, barcode or category name contain it are kept, in order. */
  function FilteredProducts(products: seq<Product>, query: Option<string>): (r: seq<Product>)
    ensures IsNullOrWhiteSpace(query) ==> r == products
    ensures !IsNullOrWhiteSpace(query) ==>
      forall p :: p in r <==> p in products && Matches(Lower(query.value), p)
    ensures |r| <= |products|
  {
    if IsNullOrWhiteSpace(query) then products
    else Keep(products, QueryFilter(Lower(query.value)))
  }

  /** For a non-blank query the filter result is an order-preserving
      sub-sequence of the products, picked by strictly increasing positions,
      and a position is picked exactly when its product matches. */
  lemma FilterIsOrderedSubsequence(products: seq<Product>, q: string)
    requires !IsBlank(q)
    ensures exists idx: seq<nat> ::
      IsOrderedSelection(FilteredProducts(products, Some(q)), products, idx, QueryFilter(Lower(q)))
  {
    var pred := QueryFilter(Lower(q));
    assert FilteredProducts(products, Some(q)) == Keep(products, pred);
    KeepIsOrderedSubsequence(products, pred);
  }

  /** The filter ignores the case of the query's ASCII letters. */
  lemma FilterIgnoresQueryCase(products: seq<Product>, q: string)
    ensures FilteredProducts(products, Some(q)) == FilteredProducts(products, Some(Lower(q)))
  {
    LowerPreservesBlank(q);
    LowerIdempotent(q);
  }

  /** The filter ignores the case of the product's name. */
  lemma FilterIgnoresNameCase(p: Product, q: string)
    ensures Matches(Lower(q), p) == Matches(Lower(q), p.(productName := Lower(p.productName)))
  {
    LowerIdempotent(p.productName);
  }

  /** A product without a category, or whose category has no name, can only
      be found through its name or its barcode. */
  lemma NoCategoryMatchesOnlyNameOrBarcode(p: Product, q: string)
    requires p.category.None? || p.category.value.categoryName.None?
    ensures Matches(Lower(q), p) <==>
      Contains(Lower(p.productName), Lower(q)) || Contains(Lower(p.barcode), Lower(q))
  {
  }

  /** Any product whose name contains the query verbatim is kept. */
  lemma NameHitIsKept(products: seq<Product>, q: string, p: Product)
    requires !IsBlank(q)
    requires p in products
    requires exists i :: OccursAt(p.productName, q, i)
    ensures p in FilteredProducts(products, Some(q))
  {
    var i :| OccursAt(p.productName, q, i);
    LowerKeepsOccurrence(p.productName, q, i);
    ContainsIffOccurs(Lower(p.productName), Lower(q));
  }

  /** The query is not trimmed: " tea" finds "Green tea" but not "tea". */
  lemma QueryIsNotTrimmed()
    ensures var green := Product(1, "Green tea", 0.0, "", "", None, 0, 0);
      var plain := Product(2, "tea", 0.0, "", "", None, 0, 0);
      FilteredProducts([green, plain], Some(" tea")) == [green]
  {
    var green := Product(1, "Green tea", 0.0, "", "", None, 0, 0);
    var plain := Product(2, "tea", 0.0, "", "", None, 0, 0);
    assert !IsBlank(" tea") by { assert !IsWhiteSpace(" tea"[1]); }
    assert Lower(" tea") == " tea";
    assert Lower("Green tea") == "green tea";
    assert OccursAt("green tea", " tea", 5);
    ContainsIffOccurs("green tea", " tea");
    ContainsIffOccurs("tea", " tea");
    ContainsIffOccurs("", " tea");
    assert Lower("tea") == "tea";
    assert Lower("") == "";
    assert !Matches(" tea", plain);
    assert Matches(" tea", green);
  }
}

=== FILE: converters.dfy ===
/** The XAML value converters: `DecimalToStringConverter`,
    `EmptyToCollapsedConverter`, `TrueToVisibleConverter` and
    `TrueToCollapsedConverter`. */
module Converters {
  import opened Values
  import opened Text

  /** `Microsoft.UI.Xaml.Visibility`. */
  datatype Visibility = Visible | Collapsed

  function Opposite(v: Visibility): Visibility {
    if v == Visible then Collapsed else Visible
  }

  /** `EmptyToCollapsedConverter.Convert`: a string with some non-white-space
      character is shown; anything else (null, non-string, blank) is collapsed. */
  function EmptyToCollapsed(value: Value): (r: Visibility)
    ensures r == Visible <==>
      value.Str? && exists i :: 0 <= i < |value.s| && !IsWhiteSpace(value.s[i])
  {
    match value
    case Str(s) => if IsNullOrWhiteSpace(Some(s)) then Collapsed else Visible
    case _ => Collapsed
  }

  /** `TrueToVisibleConverter.Convert`: only the boxed `true` is shown. */
  function TrueToVisible(value: Value): (r: Visibility)
    ensures r == Visible <==> value == Bool(true)
  {
    match value
    case Bool(b) => if b then Visible else Collapsed
    case _ => Collapsed
  }

  /** `TrueToCollapsedConverter.Convert`: everything except the boxed `true`
      is shown, including values that are not booleans. */
  function TrueToCollapsed(value: Value): (r: Visibility)
    ensures r == Collapsed <==> value == Bool(true)
  {
    match value
    case Bool(b) => if b then Collapsed else Visible
    case _ => Visible
  }

  /** The two boolean converters disagree on every input, boolean or not. */
  lemma BooleanConvertersComplementary(value: Value)
    ensures TrueToCollapsed(value) == Opposite(TrueToVisible(value))
    ensures TrueToCollapsed(value) != TrueToVisible(value)
  {
  }

  /** `object.ToString()` of a value the decimal converter does not format:
      a string is its own text, a boolean prints as "True" or "False". */
  function FallbackText(value: Value): string
    requires !value.Number?
  {
    match value
    case Null => ""
    case Str(s) => s
    case Bool(b) => if b then "True" else "False"
    case Other(text) => text
  }

  /** `DecimalToStringConverter.Convert`. The culture-dependent "N0"
      formatting of decimals, doubles and ints is the parameter `n0`. */
  function DecimalToString(value: Value, n0: Numeric -> string): (r: string)
    ensures value.Number? ==> r == n0(value.n)
    ensures value == Null ==> r == ""
    ensures value.Str? ==> r == value.s
    ensures value.Bool? ==> r == (if value.b then "True" else "False")
    ensures value.Other? ==> r == value.text
  {
    if value.Number? then n0(value.n) else FallbackText(value)
  }

  /** Only the three numeric types reach the culture formatter: for every
      other value the result is the same whatever formatter is supplied. */
  lemma FallbackIgnoresFormatter(value: Value, f: Numeric -> string, g: Numeric -> string)
    requires !value.Number?
    ensures DecimalToString(value, f) == DecimalToString(value, g) == FallbackText(value)
  {
  }

  // ---- `DecimalToStringConverter.ConvertBack` and the `decimal.TryParse` it uses ----

  predicate IsDigit(c: char) {
    '0' <= c <= '9'
  }

  /** Some character of `s` is a decimal digit. */
  predicate HasDigit(s: string) {
    exists i :: 0 <= i < |s| && IsDigit(s[i])
  }

  predicate AllDigits(s: string) {
    forall i :: 0 <= i < |s| ==> IsDigit(s[i])
  }

  /** The white space `decimal.TryParse` skips around a number. */
  predicate IsNumberWhite(c: char) {
    c == ' ' || '\t' <= c <= '\r'
  }

  /** The natural number a string of decimal digits denotes. */
  function DigitsValue(s: string): nat
    requires AllDigits(s)
  {
    if |s| == 0 then 0
    else DigitsValue(s[..|s| - 1]) * 10 + (s[|s| - 1] as int - '0' as int)
  }

  function TrimStart(s: string): (r: string)
    ensures |r| <= |s|
  {
    if |s| > 0 && IsNumberWhite(s[0]) then TrimStart(s[1..]) else s
  }

  function TrimEnd(s: string): (r: string)
    ensures |r| <= |s|
  {
    if |s| > 0 && IsNumberWhite(s[|s| - 1]) then TrimEnd(s[..|s| - 1]) else s
  }

  /** The position of the first '.', or `|s|` if there is none. */
  function PointIndex(s: string): (k: nat)
    ensures k <= |s|
    ensures forall i :: 0 <= i < k ==> s[i] != '.'
    ensures k < |s| ==> s[k] == '.'
  {
    if |s| == 0 then 0
    else if s[0] == '.' then 0
    else 1 + PointIndex(s[1..])
  }

  /** An unsigned number: digits, optionally a '.' and more digits, with at
      least one digit in all. */
  function ParseUnsigned(s: string): (r: Option<real>)
    ensures r.Some? ==> r.value >= 0.0 && HasDigit(s)
  {
    var k := PointIndex(s);
    var whole := s[..k];
    var frac := if k < |s| then s[k + 1..] else "";
    if AllDigits(whole) && AllDigits(frac) && |whole| + |frac| > 0
    then Some(DigitsValue(whole) as real + DigitsValue(frac) as real / Pow10(|frac|) as real)
    else None
  }

  /** `decimal.TryParse` over an ASCII grammar: surrounding white space, an
      optional leading sign, then an unsigned number. */
  function ParseDecimal(s: string): (r: Option<real>)
    ensures r.Some? ==> HasDigit(s)
    ensures r.Some? && r.value < 0.0 ==> '-' in s
  {
    var t := TrimEnd(TrimStart(s));
    TrimmedIsInfix(s);
    InfixCharacters(t, s, |s| - |TrimStart(s)|);
    ParseSigned(t)
  }

  /** Trimming both ends leaves a contiguous piece of the text. */
  lemma TrimmedIsInfix(s: string)
    ensures var off := |s| - |TrimStart(s)|;
      off + |TrimEnd(TrimStart(s))| <= |s| &&
      TrimEnd(TrimStart(s)) == s[off..off + |TrimEnd(TrimStart(s))|]
  {
    var u := TrimStart(s);
    var t := TrimEnd(u);
    TrimStartIsSuffix(s);
    TrimEndIsPrefix(u);
    assert t == u[..|t|];
  }

  /** Trimming the front leaves a suffix. */
  lemma {:induction false} TrimStartIsSuffix(s: string)
    ensures TrimStart(s) == s[|s| - |TrimStart(s)|..]
  {
    if |s| > 0 && IsNumberWhite(s[0]) {
      TrimStartIsSuffix(s[1..]);
    }
  }

  /** Trimming the back leaves a prefix. */
  lemma {:induction false} TrimEndIsPrefix(s: string)
    ensures TrimEnd(s) == s[..|TrimEnd(s)|]
  {
    if |s| > 0 && IsNumberWhite(s[|s| - 1]) {
      TrimEndIsPrefix(s[..|s| - 1]);
    }
  }

  /** A digit or a leading minus of a piece of `s` is one of `s`. */
  lemma InfixCharacters(t: string, s: string, off: int)
    requires 0 <= off && off + |t| <= |s| && t == s[off..off + |t|]
    ensures HasDigit(t) ==> HasDigit(s)
    ensures |t| > 0 && t[0] == '-' ==> '-' in s
  {
    if HasDigit(t) {
      var i :| 0 <= i < |t| && IsDigit(t[i]);
      assert s[off + i] == t[i];
    }
    if |t| > 0 && t[0] == '-' {
      assert s[off] == '-';
    }
  }

  /** An optional leading sign, then an unsigned number; only a minus sign
      gives a negative result. */
  function ParseSigned(t: string): (r: Option<real>)
    ensures r.Some? ==> HasDigit(t)
    ensures r.Some? && r.value < 0.0 ==> |t| > 0 && t[0] == '-'
  {
    if |t| > 0 && t[0] == '-' then Negate(ParseUnsigned(t[1..]))
    else if |t| > 0 && t[0] == '+' then ParseUnsigned(t[1..])
    else ParseUnsigned(t)
  }

  function Negate(v: Option<real>): Option<real> {
    match v
    case Some(x) => Some(-x)
    case None => None
  }

  /** `DecimalToStringConverter.ConvertBack`: commas are removed, the rest is
      parsed, and anything that is not a parseable string becomes 0. */
  function ConvertBack(value: Value): (r: real)
    ensures !value.Str? ==> r == 0.0
    ensures value.Str? && ParseDecimal(Without(value.s, ',')).None? ==> r == 0.0
    ensures value.Str? && ParseDecimal(Without(value.s, ',')).Some? ==>
      r == ParseDecimal(Without(value.s, ',')).value
  {
    match value
    case Str(s) =>
      (match ParseDecimal(Without(s, ',')) case Some(d) => d case None => 0.0)
    case _ => 0.0
  }

  /** Commas never matter to `ConvertBack`: stripping them first gives the same value. */
  lemma ConvertBackIgnoresCommas(s: string)
    ensures ConvertBack(Str(s)) == ConvertBack(Str(Without(s, ',')))
  {
    WithoutIdempotent(s, ',');
  }

  // ---- a digit rendering, used to show the parser reads back what was written ----

  function DigitChar(d: nat): char
    requires d < 10
  {
    ('0' as int + d) as char
  }

  /** The shortest decimal digit string of `n`. */
  function NatDigits(n: nat): (s: string)
    ensures |s| > 0
    decreases n
  {
    if n < 10 then [DigitChar(n)] else NatDigits(n / 10) + [DigitChar(n % 10)]
  }

  /** The digits of a number with a ',' before every group of three, from the right. */
  function GroupThousands(ds: string): string
    decreases |ds|
  {
    if |ds| <= 3 then ds
    else GroupThousands(ds[..|ds| - 3]) + "," + ds[|ds| - 3..]
  }

  /** `NatDigits` writes only digits, and they denote `n`. */
  lemma {:induction false} NatDigitsValue(n: nat)
    ensures AllDigits(NatDigits(n))
    ensures DigitsValue(NatDigits(n)) == n
    decreases n
  {
    if n >= 10 {
      NatDigitsValue(n / 10);
      var s := NatDigits(n);
      assert s[..|s| - 1] == NatDigits(n / 10);
    }
  }

  /** Grouping only inserts commas. */
  lemma {:induction false} GroupThousandsOnlyAddsCommas(ds: string)
    requires ',' !in ds
    ensures Without(GroupThousands(ds), ',') == ds
    decreases |ds|
  {
    if |ds| > 3 {
      var head := ds[..|ds| - 3];
      var tail := ds[|ds| - 3..];
      assert ds == head + tail;
      assert ',' !in head && ',' !in tail by {
        assert forall c :: c in head ==> c in ds;
        assert forall c :: c in tail ==> c in ds;
      }
      GroupThousandsOnlyAddsCommas(head);
      assert Without(",", ',') == "" by {
        assert ","[1..] == "";
      }
      WithoutAppend(GroupThousands(head) + ",", tail, ',');
      WithoutAppend(GroupThousands(head), ",", ',');
      WithoutAbsent(tail, ',');
      calc {
        Without(GroupThousands(ds), ',');
        { assert GroupThousands(ds) == GroupThousands(head) + "," + tail; }
        Without(GroupThousands(head) + "," + tail, ',');
        Without(GroupThousands(head) + ",", ',') + Without(tail, ',');
        Without(GroupThousands(head), ',') + Without(",", ',') + tail;
        head + "" + tail;
        ds;
      }
    } else {
      WithoutAbsent(ds, ',');
    }
  }

  /** A string of digits parses, unsigned, to the number it denotes. */
  lemma ParseDecimalDigits(ds: string)
    requires |ds| > 0 && AllDigits(ds)
    ensures ParseDecimal(ds) == Some(DigitsValue(ds) as real)
  {
    DigitsNeedNoTrim(ds);
    ParseUnsignedDigits(ds);
  }

  /** Digits are not white space, so trimming leaves them alone. */
  lemma DigitsNeedNoTrim(ds: string)
    requires |ds| > 0 && AllDigits(ds)
    ensures TrimEnd(TrimStart(ds)) == ds
  {
    assert !IsNumberWhite(ds[0]);
    assert TrimStart(ds) == ds;
    assert !IsNumberWhite(ds[|ds| - 1]);
  }

  /** A digit string holds no '.', so it is all whole part. */
  lemma ParseUnsignedDigits(ds: string)
    requires |ds| > 0 && AllDigits(ds)
    ensures ParseUnsigned(ds) == Some(DigitsValue(ds) as real)
  {
    var k := PointIndex(ds);
    assert k == |ds|;
    assert ds[..k] == ds;
  }

  /** A minus sign followed by digits is not white space at either end. */
  lemma NegatedDigitsNeedNoTrim(ds: string)
    requires |ds| > 0 && AllDigits(ds)
    ensures TrimEnd(TrimStart("-" + ds)) == "-" + ds
  {
    var neg := "-" + ds;
    assert !IsNumberWhite(neg[0]);
    assert TrimStart(neg) == neg;
    assert neg[|neg| - 1] == ds[|ds| - 1];
    assert !IsNumberWhite(neg[|neg| - 1]);
  }

  /** A leading minus negates what follows it. */
  lemma MinusNegates(t: string)
    requires |t| > 0 && t[0] == '-'
    ensures ParseSigned(t) == Negate(ParseUnsigned(t[1..]))
  {
  }

  /** A minus sign before a string of digits negates it. */
  lemma ParseDecimalNegatedDigits(ds: string)
    requires |ds| > 0 && AllDigits(ds)
    ensures ParseDecimal("-" + ds) == Negate(Some(DigitsValue(ds) as real))
  {
    var neg := "-" + ds;
    calc {
      ParseDecimal(neg);
      ParseSigned(TrimEnd(TrimStart(neg)));
      { NegatedDigitsNeedNoTrim(ds); }
      ParseSigned(neg);
      { MinusNegates(neg); }
      Negate(ParseUnsigned(neg[1..]));
      { assert neg[1..] == ds; }
      Negate(ParseUnsigned(ds));
      { ParseUnsignedDigits(ds); }
      Negate(Some(DigitsValue(ds) as real));
    }
  }

  /** `ConvertBack` reads a number written with thousands separators back as
      that number, whether or not it carries a minus sign. */
  lemma ConvertBackReadsGroupedDigits(n: nat)
    ensures ConvertBack(Str(GroupThousands(NatDigits(n)))) == n as real
    ensures ConvertBack(Str("-" + GroupThousands(NatDigits(n)))) == -(n as real)
  {
    var ds := NatDigits(n);
    NatDigitsValue(n);
    assert ',' !in ds by {
      assert forall i :: 0 <= i < |ds| ==> ds[i] != ',';
    }
    GroupThousandsOnlyAddsCommas(ds);
    ParseDecimalDigits(ds);
    ParseDecimalNegatedDigits(ds);
    WithoutAppend("-", GroupThousands(ds), ',');
    assert Without("-", ',') == "-" by {
      assert "-"[1..] == "";
    }
  }

  /** Text that is not a number converts back to 0. */
  lemma ConvertBackRejectsText()
    ensures ConvertBack(Str("12a")) == 0.0
  {
    var s := "12a";
    assert Without(s, ',') == s by {
      WithoutAbsent(s, ',');
    }
    assert TrimEnd(TrimStart(s)) == s by {
      assert !IsNumberWhite(s[0]);
      assert !IsNumberWhite(s[2]);
    }
    assert PointIndex(s) == 3;
    assert s[..3] == s;
    assert !AllDigits(s) by { assert !IsDigit(s[2]); }
  }
}

=== FILE: debuglog.dfy ===
/** The logging handler `DebugHttpHandler`: what it writes about a request
    and a response, and that it passes both through untouched. */
module DebugLog {
  import opened Values
  import opened Text
  import opened Http

  const MaskedAuthorization: string := "Bearer ***"
  const ValueSeparator: string := ", "
  const PreviewLimit: nat := 200
  const Ellipsis: string := "..."

  // Titles and captions of the lines the handler writes.
  const RequestHeadersTitle: string := "\U{1F4CB} Request Headers:"
  const RequestBodyCaption: string := "\U{1F4E4} Request Body: "
  const ResponseHeadersTitle: string := "\U{1F4CB} Response Headers:"
  const UriCaption: string := "\U{1F517} URI: "
  const PreviewCaption: string := "\U{1F4E5} Response Preview: "
  const ErrorBodyCaption: string := "\U{1F4E5} Error Response: "

  /** The value logged for a request header: any header whose lower-cased name
      is "authorization" is masked, the others show their values joined. */
  function MaskedValue(h: Header): (r: string)
    ensures Lower(h.name) == "authorization" ==> r == MaskedAuthorization
    ensures Lower(h.name) != "authorization" ==> r == Join(h.values, ValueSeparator)
  {
    if Lower(h.name) == "authorization" then MaskedAuthorization else Join(h.values, ValueSeparator)
  }

  function RequestHeaderLine(h: Header): string {
    "   " + h.name + ": " + MaskedValue(h)
  }

  /** A response header is logged unmasked. */
  function ResponseHeaderLine(h: Header): string {
    "   " + h.name + ": " + Join(h.values, ValueSeparator)
  }

  /** The request-header block: a title and one line per header, or nothing
      when the request has no headers. */
  function RequestHeaderLines(req: Request): (r: seq<string>)
    ensures |AllHeaders(req)| == 0 ==> r == []
    ensures |AllHeaders(req)| > 0 ==> |r| == |AllHeaders(req)| + 1
    ensures |AllHeaders(req)| > 0 ==> r[0] == RequestHeadersTitle
    ensures forall i :: 0 <= i < |AllHeaders(req)| ==>
      r[i + 1] == "   " + AllHeaders(req)[i].name + ": " + MaskedValue(AllHeaders(req)[i])
  {
    var hs := AllHeaders(req);
    if |hs| == 0 then []
    else [RequestHeadersTitle] + seq(|hs|, i requires 0 <= i < |hs| => RequestHeaderLine(hs[i]))
  }

  /** The response preview: at most 200 characters of the body, with "..."
      appended when it was cut. */
  function Preview(body: string): (r: string)
    ensures |body| <= PreviewLimit ==> r == body
    ensures |body| > PreviewLimit ==>
      |r| == PreviewLimit + |Ellipsis| && r[..PreviewLimit] == body[..PreviewLimit] && r[PreviewLimit..] == Ellipsis
    ensures |r| <= PreviewLimit + |Ellipsis|
  {
    if |body| > PreviewLimit then body[..PreviewLimit] + Ellipsis else body
  }

  /** A body line, written only for a non-null, non-empty body. */
  function BodyLine(caption: string, body: Option<string>): (r: seq<string>)
    ensures IsNullOrEmpty(body) <==> r == []
    ensures !IsNullOrEmpty(body) ==> r == [caption + body.value]
  {
    if IsNullOrEmpty(body) then [] else [caption + body.value]
  }

  /** Everything logged before the request is forwarded (besides the
      method and URI line). */
  function RequestLog(req: Request): seq<string> {
    RequestHeaderLines(req) + BodyLine(RequestBodyCaption, req.content)
  }

  /** The response-header block of a failed call: a title and one unmasked
      line per header, or nothing when the response has no headers. */
  function ResponseHeaderLines(resp: Response): (r: seq<string>)
    ensures |resp.headers| == 0 ==> r == []
    ensures |resp.headers| > 0 ==> |r| == |resp.headers| + 1 && r[0] == ResponseHeadersTitle
    ensures forall i :: 0 <= i < |resp.headers| ==> r[i + 1] == ResponseHeaderLine(resp.headers[i])
  {
    var hs := resp.headers;
    if |hs| == 0 then []
    else [ResponseHeadersTitle] + seq(|hs|, i requires 0 <= i < |hs| => ResponseHeaderLine(hs[i]))
  }

  /** The URI line of a failed call, written when the request has a URI. */
  function UriLine(req: Request): (r: seq<string>)
    ensures req.uri.None? <==> r == []
    ensures req.uri.Some? ==> r == [UriCaption + req.uri.value]
  {
    if req.uri.Some? then [UriCaption + req.uri.value] else []
  }

  /** Everything logged about the response (besides the status and timing
      line): a success shows at most a preview of its body; a failure shows
      the URI, every response header unmasked and the whole error body. */
  function ResponseLog(req: Request, resp: Response): (r: seq<string>)
    ensures IsSuccess(resp) ==> |r| <= 1
    ensures IsSuccess(resp) ==> (r == [] <==> IsNullOrEmpty(resp.content))
    ensures IsSuccess(resp) && !IsNullOrEmpty(resp.content) ==>
      r[0] == PreviewCaption + Preview(resp.content.value)
    ensures !IsSuccess(resp) && req.uri.Some? ==> |r| > 0 && r[0] == UriCaption + req.uri.value
    ensures !IsSuccess(resp) ==> forall i :: 0 <= i < |resp.headers| ==>
      ResponseHeaderLine(resp.headers[i]) in r
    ensures !IsSuccess(resp) && !IsNullOrEmpty(resp.content) ==>
      |r| > 0 && r[|r| - 1] == ErrorBodyCaption + resp.content.value
  {
    if IsSuccess(resp) then
      (if IsNullOrEmpty(resp.content) then []
       else [PreviewCaption + Preview(resp.content.value)])
    else
      var u := UriLine(req);
      var hl := ResponseHeaderLines(resp);
      var b := BodyLine(ErrorBodyCaption, resp.content);
      u + hl + b
  }

  /** What one pass through the handler did and wrote. */
  datatype LoggedExchange = LoggedExchange(exchange: Exchange, log: seq<string>)

  /** `DebugHttpHandler.SendAsync`: the request is forwarded as it is, and the
      inner handler's response is returned as it is; only the log is added. */
  function DebugSend(req: Request, inner: Inner): (r: LoggedExchange)
    ensures r.exchange.forwarded == req
    ensures r.exchange.response == inner(req)
    ensures r.log == RequestLog(req) + ResponseLog(req, inner(req))
  {
    var resp := inner(req);
    LoggedExchange(Exchange(req, resp), RequestLog(req) + ResponseLog(req, resp))
  }

  /** Whatever credential a request carries, the request log is the same:
      the token never reaches the log. */
  lemma CredentialNeverLogged(req: Request, a: AuthHeader, b: AuthHeader)
    ensures RequestLog(req.(authorization := Some(a))) == RequestLog(req.(authorization := Some(b)))
  {
    var ra := req.(authorization := Some(a));
    var rb := req.(authorization := Some(b));
    assert Lower(AuthorizationName) == "authorization";
    assert RequestHeaderLine(AllHeaders(ra)[0]) == RequestHeaderLine(AllHeaders(rb)[0]);
    assert forall i :: 1 <= i < |AllHeaders(ra)| ==> AllHeaders(ra)[i] == AllHeaders(rb)[i];
    assert forall i :: 0 <= i < |AllHeaders(ra)| ==>
      RequestHeaderLine(AllHeaders(ra)[i]) == RequestHeaderLine(AllHeaders(rb)[i]);
    assert RequestHeaderLines(ra) == RequestHeaderLines(rb);
  }

  /** Every header of the request reaches the log, under its own name, with
      its masked value. */
  lemma EveryHeaderLogged(req: Request, h: Header)
    requires h in AllHeaders(req)
    ensures "   " + h.name + ": " + MaskedValue(h) in RequestLog(req)
  {
    var hs := AllHeaders(req);
    var k :| 0 <= k < |hs| && hs[k] == h;
    assert RequestLog(req)[k + 1] == RequestHeaderLines(req)[k + 1];
  }

  /** What is logged about the response depends on the request only through
      its URI: request headers and credentials never reach it. */
  lemma ResponseLogSeesOnlyUri(req1: Request, req2: Request, resp: Response)
    requires req1.uri == req2.uri
    ensures ResponseLog(req1, resp) == ResponseLog(req2, resp)
  {
  }

  /** Any header whose name is "authorization" in some casing is masked,
      whatever its values. */
  lemma AuthorizationAlwaysMasked(name: string, v1: seq<string>, v2: seq<string>)
    requires Lower(name) == "authorization"
    ensures MaskedValue(Header(name, v1)) == MaskedValue(Header(name, v2)) == MaskedAuthorization
  {
  }

  /** Any other header shows its single value verbatim. */
  lemma OtherHeaderShowsValue(name: string, v: string)
    requires Lower(name) != "authorization"
    ensures MaskedValue(Header(name, [v])) == v
  {
  }

  /** The preview never exceeds 203 characters, is the body itself when the
      body fits in 200, differs from any body longer than 203, and always
      starts with the body's first (up to 200) characters. A body of 201 to
      203 characters can still preview as itself: 200 characters followed by
      "..." is its own preview. */
  lemma PreviewShape(body: string)
    ensures |Preview(body)| <= PreviewLimit + |Ellipsis|
    ensures |body| <= PreviewLimit ==> Preview(body) == body
    ensures |body| > PreviewLimit + |Ellipsis| ==> Preview(body) != body
    ensures |body| == PreviewLimit + |Ellipsis| && body[PreviewLimit..] == Ellipsis ==> Preview(body) == body
    ensures var n := if |body| <= PreviewLimit then |body| else PreviewLimit; Preview(body)[..n] == body[..n]
  {
    if |body| > PreviewLimit {
      assert |Preview(body)| == PreviewLimit + |Ellipsis|;
      if |body| == PreviewLimit + |Ellipsis| && body[PreviewLimit..] == Ellipsis {
        assert body == body[..PreviewLimit] + body[PreviewLimit..];
      }
    }
  }

  /** A null or empty response body on success produces no preview line. */
  lemma EmptySuccessBodyNotLogged(req: Request, resp: Response)
    requires IsSuccess(resp)
    requires IsNullOrEmpty(resp.content)
    ensures ResponseLog(req, resp) == []
  {
  }
}

=== FILE: http.dfy ===
/** The parts of an HTTP request and response the delegating handlers read or change. */
module Http {
  import opened Values
  import opened Text

  /** `AuthenticationHeaderValue`: a scheme and its credential. */
  datatype AuthHeader = AuthHeader(scheme: string, parameter: string)

  /** A named header with its values. */
  datatype Header = Header(name: string, values: seq<string>)

  /** An outgoing request. `authorization` is the typed Authorization header;
      `headers` are all the others (`WellFormed` states what .NET guarantees).
      `verb` is kept as structure only: the method/URI line that would read it
      is not modelled. */
  datatype Request = Request(
    verb: string,
    uri: Option<string>,
    authorization: Option<AuthHeader>,
    headers: seq<Header>,
    content: Option<string>)

  /** A response from the inner handler. */
  datatype Response = Response(status: int, headers: seq<Header>, content: Option<string>)

  /** What the next handler in the chain is: an opaque function of the request. */
  type Inner = Request -> Response

  /** What a delegating handler did: the one request it passed on and the
      response it returned. */
  datatype Exchange = Exchange(forwarded: Request, response: Response)

  const AuthorizationName: string := "Authorization"
  const BearerScheme: string := "Bearer"

  function Bearer(token: string): AuthHeader {
    AuthHeader(BearerScheme, token)
  }

  /** The text the Authorization header enumerates as: scheme, space, credential. */
  function AuthHeaderText(h: AuthHeader): string {
    h.scheme + " " + h.parameter
  }

  /** Every request header, the Authorization header (if any) first. */
  function AllHeaders(req: Request): (r: seq<Header>)
    ensures |r| == |req.headers| + (if req.authorization.Some? then 1 else 0)
  {
    (if req.authorization.Some?
     then [Header(AuthorizationName, [AuthHeaderText(req.authorization.value)])]
     else [])
    + req.headers
  }

  /** A request .NET can build: header names are case-insensitively
      distinct, and the Authorization header lives only in the typed field
      (the typed and the raw header share one store). */
  predicate WellFormed(req: Request) {
    && (forall i, j :: 0 <= i < j < |req.headers| ==> Lower(req.headers[i].name) != Lower(req.headers[j].name))
    && (forall i :: 0 <= i < |req.headers| ==> Lower(req.headers[i].name) != "authorization")
  }

  /** In a well-formed request every header the handlers enumerate has its
      own name, so collecting them into a dictionary by name never collides. */
  lemma AllHeaderNamesDistinct(req: Request)
    requires WellFormed(req)
    ensures forall i, j :: 0 <= i < j < |AllHeaders(req)| ==> AllHeaders(req)[i].name != AllHeaders(req)[j].name
  {
    var hs := AllHeaders(req);
    var off := if req.authorization.Some? then 1 else 0;
    assert Lower(AuthorizationName) == "authorization";
    forall i, j | 0 <= i < j < |hs|
      ensures hs[i].name != hs[j].name
    {
      assert hs[j] == req.headers[j - off];
      if i < off {
        assert hs[i].name == AuthorizationName;
      } else {
        assert hs[i] == req.headers[i - off];
      }
    }
  }

  /** `IsSuccessStatusCode`. */
  predicate IsSuccess(r: Response) {
    200 <= r.status <= 299
  }
}

=== FILE: productlist.dfy ===
/** The product list view-model (`ProductListViewModel`): its busy-guarded
    load cycle, the error messages it shows, its empty-state flag and its
    filtered view. The remote call is an abstract outcome value. */
module ProductList {
  import opened Values
  import opened Text
  import opened Catalog

  /** The observable state of one view-model instance. */
  datatype ViewModel = ViewModel(
    isBusy: bool,
    errorMessage: string,
    searchQuery: Option<string>,
    products: seq<Product>)

  /** How the awaited `GetProductsAsync` call ended: it returned a (possibly
      null) list, or threw a Refit `ApiException` (with its status code, the
      text form of that code and the exception message), an
      `HttpRequestException`, or any other exception. */
  datatype FetchOutcome =
    | Fetched(result: Option<seq<Product>>)
    | ApiFailure(status: int, statusText: string, message: string)
    | NetworkFailure(message: string)
    | OtherFailure(message: string)

  /** The four error classes the view-model tells apart. */
  datatype ErrorKind = Unauthorized | Network | Api | Unexpected

  const Unauthorized401: int := 401
  const SessionExpiredMessage: string := "Session expired. Please login again."
  // Written as two literals so that its first character can be read off
  // without unfolding the whole text.
  const NetworkErrorMessage: string := "Network error. " + "Please check your connection and try again."
  const ApiErrorPrefix: string := "API Error ("
  const UnexpectedErrorPrefix: string := "An error occurred: "

  /** The state right after construction, before the automatic first load. */
  function Initial(): (s: ViewModel)
    ensures !s.isBusy && s.errorMessage == "" && s.products == [] && s.searchQuery == Some("")
  {
    ViewModel(false, "", Some(""), [])
  }

  /** What the constructor hands back: the automatic first load has run up
      to its awaited call, so the view-model is already busy, and a load
      triggered by the page before that call returns is dropped. */
  function Constructed(): (r: ViewModel)
    ensures r.isBusy && !IsEmpty(r)
    ensures r.errorMessage == "" && r.products == [] && r.searchQuery == Some("")
    ensures forall o :: Load(r, o) == r
  {
    Begin(Initial())
  }

  /** Which catch clause handles a failure; the 401 clause is tried first. */
  function KindOf(o: FetchOutcome): ErrorKind
    requires !o.Fetched?
  {
    match o
    case ApiFailure(status, _, _) => if status == Unauthorized401 then Unauthorized else Api
    case NetworkFailure(_) => Network
    case OtherFailure(_) => Unexpected
  }

  /** The message the catch clause that handles `o` stores. */
  function FailureMessage(o: FetchOutcome): (msg: string)
    requires !o.Fetched?
    ensures KindOf(o) == Unauthorized ==> msg == SessionExpiredMessage
    ensures KindOf(o) == Network ==> msg == NetworkErrorMessage
    ensures KindOf(o) == Api ==> msg == ApiErrorPrefix + o.statusText + "): " + o.message
    ensures KindOf(o) == Unexpected ==> msg == UnexpectedErrorPrefix + o.message
  {
    match o
    case ApiFailure(status, statusText, message) =>
      if status == Unauthorized401 then SessionExpiredMessage
      else ApiErrorPrefix + statusText + "): " + message
    case NetworkFailure(_) => NetworkErrorMessage
    case OtherFailure(message) => UnexpectedErrorPrefix + message
  }

  /** Reads the error class back from a shown message, if it is one of the four forms. */
  function KindOfMessage(msg: string): Option<ErrorKind> {
    if msg == SessionExpiredMessage then Some(Unauthorized)
    else if msg == NetworkErrorMessage then Some(Network)
    else if StartsWith(msg, ApiErrorPrefix) then Some(Api)
    else if StartsWith(msg, UnexpectedErrorPrefix) then Some(Unexpected)
    else None
  }

  /** The first characters that tell the four message forms apart. */
  lemma LeadingCharacters()
    ensures SessionExpiredMessage[0] == 'S'
    ensures NetworkErrorMessage[0] == 'N'
    ensures ApiErrorPrefix[0] == 'A' && ApiErrorPrefix[1] == 'P'
    ensures UnexpectedErrorPrefix[0] == 'A' && UnexpectedErrorPrefix[1] == 'n'
  {
  }

  /** The four failure classes produce four distinguishable, non-empty messages:
      the class can always be read back from the message. */
  lemma MessageIdentifiesKind(o: FetchOutcome)
    requires !o.Fetched?
    ensures KindOfMessage(FailureMessage(o)) == Some(KindOf(o))
    ensures |FailureMessage(o)| > 0
  {
    var msg := FailureMessage(o);
    match KindOf(o)
    case Unauthorized =>
    case Network =>
    case Api =>
      assert msg[..|ApiErrorPrefix|] == ApiErrorPrefix;
      LeadingCharacters();
      assert msg[0] == 'A' && msg[1] == 'P';
    case Unexpected =>
      assert msg[..|UnexpectedErrorPrefix|] == UnexpectedErrorPrefix;
      LeadingCharacters();
      assert msg[0] == 'A' && msg[1] == 'n';
  }

  /** The first half of `LoadProductsAsync`, up to the awaited call: the
      busy flag is raised and the previous error is cleared. */
  function Begin(s: ViewModel): (r: ViewModel)
    requires !s.isBusy
    ensures r.isBusy && r.errorMessage == ""
    ensures r.products == s.products && r.searchQuery == s.searchQuery
  {
    s.(isBusy := true, errorMessage := "")
  }

  /** The second half: the awaited call's outcome is applied and the
      `finally` clause lowers the busy flag. */
  function Complete(s: ViewModel, o: FetchOutcome): (r: ViewModel)
    requires s.isBusy
    ensures !r.isBusy && r.searchQuery == s.searchQuery
    ensures o.Fetched? ==> r.errorMessage == s.errorMessage
    ensures o.Fetched? && o.result.Some? ==> r.products == o.result.value
    ensures o.Fetched? && o.result.None? ==> r.products == []
    ensures !o.Fetched? ==> r.products == s.products && r.errorMessage == FailureMessage(o)
  {
    match o
    case Fetched(result) =>
      var loaded := if result.Some? then result.value else [];
      s.(isBusy := false, products := loaded)
    case _ =>
      s.(isBusy := false, errorMessage := FailureMessage(o))
  }

  /** `LoadProductsAsync` run to completion: skipped entirely while busy,
      otherwise Begin followed by Complete. */
  function Load(s: ViewModel, o: FetchOutcome): (r: ViewModel)
    ensures s.isBusy ==> r == s
    ensures !s.isBusy ==> !r.isBusy
    ensures r.searchQuery == s.searchQuery
    ensures !s.isBusy && o.Fetched? ==> r.errorMessage == ""
    ensures !s.isBusy && o.Fetched? ==>
      r.products == (if o.result.Some? then o.result.value else [])
    ensures !s.isBusy && !o.Fetched? ==>
      r.products == s.products && r.errorMessage == FailureMessage(o)
  {
    if s.isBusy then s else Complete(Begin(s), o)
  }

  /** `IsEmpty`: the empty-state placeholder is shown. It is only ever shown
      over an empty filtered list, and never beside an error message. */
  predicate IsEmpty(s: ViewModel)
    ensures IsEmpty(s) ==> FilteredView(s) == [] && s.errorMessage == ""
  {
    !s.isBusy && |s.products| == 0 && |s.errorMessage| == 0
  }

  /** `FilteredProducts` of the view-model's current state. */
  function FilteredView(s: ViewModel): seq<Product> {
    FilteredProducts(s.products, s.searchQuery)
  }

  /** `SearchQuery` is set by the UI; nothing else changes. */
  function SetSearchQuery(s: ViewModel, q: Option<string>): (r: ViewModel)
    ensures r.searchQuery == q
    ensures r.isBusy == s.isBusy && r.errorMessage == s.errorMessage && r.products == s.products
  {
    s.(searchQuery := q)
  }

  /** While the fetch is in flight the placeholder is hidden. */
  lemma NotEmptyWhileLoading(s: ViewModel)
    requires !s.isBusy
    ensures !IsEmpty(Begin(s))
  {
  }

  /** After a completed load the placeholder is shown exactly when the fetch
      succeeded with a null or empty list: every failure leaves a message. */
  lemma EmptyAfterLoad(s: ViewModel, o: FetchOutcome)
    requires !s.isBusy
    ensures IsEmpty(Load(s, o)) <==>
      o.Fetched? && (o.result.None? || |o.result.value| == 0)
  {
    if !o.Fetched? {
      MessageIdentifiesKind(o);
    }
  }

  /** Reloading with the same list replaces rather than appends: the list is
      never duplicated, however many loads complete. */
  lemma ReloadDoesNotDuplicate(s: ViewModel, ps: seq<Product>)
    requires !s.isBusy
    ensures Load(Load(s, Fetched(Some(ps))), Fetched(Some(ps))).products == ps
  {
  }

  /** A second trigger that arrives while the first load is in flight is
      dropped: it changes nothing, and the first load then completes as if
      the second had never happened. */
  lemma SecondTriggerDropped(s: ViewModel, first: FetchOutcome, second: FetchOutcome)
    requires !s.isBusy
    ensures Load(Begin(s), second) == Begin(s)
    ensures Complete(Load(Begin(s), second), first) == Load(s, first)
  {
  }

  /** With a blank search query the filtered view is exactly the loaded list. */
  lemma BlankQueryShowsLoadedList(s: ViewModel, ps: seq<Product>)
    requires !s.isBusy
    requires IsNullOrWhiteSpace(s.searchQuery)
    ensures FilteredView(Load(s, Fetched(Some(ps)))) == ps
  {
  }

  /** A failed load leaves the filtered view exactly as it was. */
  lemma FailureKeepsFilteredView(s: ViewModel, o: FetchOutcome)
    requires !o.Fetched?
    ensures FilteredView(Load(s, o)) == FilteredView(s)
  {
  }
}

=== FILE: scenarios.dfy ===
/** End-to-end behaviour across the token provider, the authorization
    handler and the product list view-model. */
module Scenarios {
  import opened Http
  import opened TokenStores
  import opened AuthHandlers
  import opened ProductList

  /** Without a token the request goes out with no Authorization header;
      when the server answers 401 the view-model shows the session-expired
      message, keeps the products it had and is idle again. */
  lemma MissingTokenLeadsToSessionExpired(
    s: ViewModel, c: TokenCell, req: Request, inner: Inner, statusText: string, message: string)
    requires !s.isBusy
    requires GetTokenAsync(c).None?
    requires req.authorization.None?
    ensures AuthorizationSend(c, req, inner).forwarded.authorization.None?
    ensures var after := Load(s, ApiFailure(401, statusText, message));
      && after.errorMessage == SessionExpiredMessage
      && after.products == s.products
      && !after.isBusy
      && !IsEmpty(after)
  {
    EmptyAfterLoad(s, ApiFailure(401, statusText, message));
  }

  /** After logging out through the provider the same holds. */
  lemma ClearedProviderSendsNoHeader(c: TokenCell, req: Request, inner: Inner)
    requires req.authorization.None?
    ensures AuthorizationSend(ClearTokenAsync(c), req, inner).forwarded == req
  {
  }
}

=== FILE: seqs.dfy ===
/** LINQ `Where` over a sequence: the order-preserving sub-sequence of the
    elements that satisfy a predicate. */
module Seqs {

  /** The elements of `s` that satisfy `p`, in their original order. */
  function Keep<T(!new)>(s: seq<T>, p: T -> bool): (r: seq<T>)
    ensures |r| <= |s|
    ensures forall x :: x in r <==> x in s && p(x)
  {
    if |s| == 0 then []
    else Keep(s[..|s| - 1], p) + (if p(s[|s| - 1]) then [s[|s| - 1]] else [])
  }

  /** The positions in `s` of the elements `Keep` retains, in ascending order. */
  function KeptIndices<T(!new)>(s: seq<T>, p: T -> bool): seq<nat>
  {
    if |s| == 0 then []
    else KeptIndices(s[..|s| - 1], p) + (if p(s[|s| - 1]) then [|s| - 1] else [])
  }

  /** `r` is the sub-sequence of `s` at the strictly increasing positions
      `idx`, and those are exactly the positions whose element satisfies `p`. */
  ghost predicate IsOrderedSelection<T(!new)>(r: seq<T>, s: seq<T>, idx: seq<nat>, p: T -> bool) {
    && |idx| == |r|
    && (forall k :: 0 <= k < |idx| ==> idx[k] < |s| && r[k] == s[idx[k]])
    && (forall j, k :: 0 <= j < k < |idx| ==> idx[j] < idx[k])
    && (forall i :: 0 <= i < |s| ==> (p(s[i]) <==> i in idx))
  }

  /** The kept positions are in range and strictly increasing. */
  lemma {:induction false} KeptIndicesAscending<T(!new)>(s: seq<T>, p: T -> bool)
    ensures forall k :: 0 <= k < |KeptIndices(s, p)| ==> KeptIndices(s, p)[k] < |s|
    ensures forall j, k :: 0 <= j < k < |KeptIndices(s, p)| ==> KeptIndices(s, p)[j] < KeptIndices(s, p)[k]
  {
    if |s| > 0 {
      KeptIndicesAscending(s[..|s| - 1], p);
    }
  }

  /** The kept positions hold, in order, the kept elements. */
  lemma {:induction false} KeptIndicesSelect<T(!new)>(s: seq<T>, p: T -> bool)
    ensures |KeptIndices(s, p)| == |Keep(s, p)|
    ensures forall k :: 0 <= k < |KeptIndices(s, p)| ==>
      KeptIndices(s, p)[k] < |s| && Keep(s, p)[k] == s[KeptIndices(s, p)[k]]
  {
    if |s| > 0 {
      var init := s[..|s| - 1];
      KeptIndicesSelect(init, p);
      KeptIndicesAscending(init, p);
      var ki := KeptIndices(init, p);
      var kr := Keep(init, p);
      var n := |s|;
      if p(s[n - 1]) {
        assert KeptIndices(s, p) == ki + [n - 1];
        assert Keep(s, p) == kr + [s[n - 1]];
      } else {
        assert KeptIndices(s, p) == ki;
        assert Keep(s, p) == kr;
      }
      forall k | 0 <= k < |ki|
        ensures KeptIndices(s, p)[k] == ki[k] && Keep(s, p)[k] == kr[k]
        ensures init[ki[k]] == s[ki[k]]
      {
      }
    }
  }

  /** A position is kept exactly when its element satisfies `p`. */
  lemma {:induction false} KeptIndicesComplete<T(!new)>(s: seq<T>, p: T -> bool)
    ensures forall i :: 0 <= i < |s| ==> (p(s[i]) <==> i in KeptIndices(s, p))
  {
    if |s| > 0 {
      var init := s[..|s| - 1];
      KeptIndicesComplete(init, p);
      KeptIndicesAscending(init, p);
      assert forall i :: 0 <= i < |init| ==> init[i] == s[i];
      assert |s| - 1 !in KeptIndices(init, p);
    }
  }

  /** `Keep(s, p)` is exactly the sub-sequence of `s` picked out by a strictly
      increasing list of positions, and those are all positions whose element
      satisfies `p`: the filter drops nothing it should keep and never reorders. */
  lemma KeepIsOrderedSubsequence<T(!new)>(s: seq<T>, p: T -> bool)
    ensures |KeptIndices(s, p)| == |Keep(s, p)|
    ensures forall k :: 0 <= k < |KeptIndices(s, p)| ==> KeptIndices(s, p)[k] < |s|
    ensures forall k :: 0 <= k < |KeptIndices(s, p)| ==> Keep(s, p)[k] == s[KeptIndices(s, p)[k]]
    ensures forall j, k :: 0 <= j < k < |KeptIndices(s, p)| ==> KeptIndices(s, p)[j] < KeptIndices(s, p)[k]
    ensures forall i :: 0 <= i < |s| ==> (p(s[i]) <==> i in KeptIndices(s, p))
    ensures IsOrderedSelection(Keep(s, p), s, KeptIndices(s, p), p)
  {
    KeptIndicesAscending(s, p);
    KeptIndicesSelect(s, p);
    KeptIndicesComplete(s, p);
  }
}

=== FILE: text.dfy ===
/** The string rules the source takes from the .NET base library:
    `char.IsWhiteSpace`, `string.IsNullOrWhiteSpace`, `ToLowerInvariant`,
    `string.Contains`, `string.Join` and `string.Replace`. */
module Text {
  import opened Values

  /** `char.IsWhiteSpace`: the Unicode White_Space characters. */
  predicate IsWhiteSpace(c: char) {
    || c == ' '
    || '\t' <= c <= '\r'
    || c == '\U{85}'
    || c == '\U{A0}'
    || c == '\U{1680}'
    || '\U{2000}' <= c <= '\U{200A}'
    || c == '\U{2028}'
    || c == '\U{2029}'
    || c == '\U{202F}'
    || c == '\U{205F}'
    || c == '\U{3000}'
  }

  /** Every character of `s` is white space (vacuously true of ""). */
  predicate IsBlank(s: string) {
    forall i :: 0 <= i < |s| ==> IsWhiteSpace(s[i])
  }

  /** `string.IsNullOrWhiteSpace`. */
  predicate IsNullOrWhiteSpace(s: Option<string>) {
    s.None? || IsBlank(s.value)
  }

  /** `string.IsNullOrEmpty`. */
  predicate IsNullOrEmpty(s: Option<string>) {
    s.None? || |s.value| == 0
  }

  /** Lower-casing of one character, restricted to ASCII. */
  function LowerChar(c: char): char {
    if 'A' <= c <= 'Z' then (c as int - 'A' as int + 'a' as int) as char else c
  }

  /** `ToLowerInvariant`, restricted to ASCII letters. */
  function Lower(s: string): (r: string)
    ensures |r| == |s|
    ensures forall i :: 0 <= i < |s| ==> r[i] == LowerChar(s[i])
  {
    seq(|s|, i requires 0 <= i < |s| => LowerChar(s[i]))
  }

  /** Lower-casing twice is lower-casing once. */
  lemma LowerIdempotent(s: string)
    ensures Lower(Lower(s)) == Lower(s)
  {
    assert forall i :: 0 <= i < |s| ==> Lower(Lower(s))[i] == Lower(s)[i];
  }

  /** Lower-casing neither creates nor removes white space. */
  lemma LowerPreservesBlank(s: string)
    ensures IsBlank(Lower(s)) <==> IsBlank(s)
  {
    assert forall i :: 0 <= i < |s| ==> (IsWhiteSpace(Lower(s)[i]) <==> IsWhiteSpace(s[i]));
  }

  /** `t` occurs in `s` starting at index `i`. */
  ghost predicate OccursAt(s: string, t: string, i: int) {
    0 <= i && i + |t| <= |s| && s[i..i + |t|] == t
  }

  predicate StartsWith(s: string, t: string) {
    |t| <= |s| && s[..|t|] == t
  }

  /** `string.Contains` (ordinal): the empty string occurs in every string. */
  function Contains(s: string, t: string): (r: bool)
    decreases |s|
  {
    if StartsWith(s, t) then true
    else if |s| == 0 then false
    else Contains(s[1..], t)
  }

  /** `Contains` holds exactly when `t` occurs somewhere in `s`. */
  lemma {:induction false} ContainsIffOccurs(s: string, t: string)
    ensures Contains(s, t) <==> exists i :: OccursAt(s, t, i)
    decreases |s|
  {
    assert OccursAt(s, t, 0) <==> StartsWith(s, t);
    if StartsWith(s, t) {
    } else if |s| == 0 {
      assert forall i :: OccursAt(s, t, i) ==> i == 0;
    } else {
      ContainsIffOccurs(s[1..], t);
      if Contains(s[1..], t) {
        var i :| OccursAt(s[1..], t, i);
        assert s[1..][i..i + |t|] == s[i + 1..i + 1 + |t|];
        assert OccursAt(s, t, i + 1);
      }
      if exists i :: OccursAt(s, t, i) {
        var i :| OccursAt(s, t, i);
        assert i != 0;
        assert s[1..][i - 1..i - 1 + |t|] == s[i..i + |t|];
        assert OccursAt(s[1..], t, i - 1);
      }
    }
  }

  /** Lower-casing both sides keeps every occurrence. */
  lemma LowerKeepsOccurrence(s: string, t: string, i: int)
    requires OccursAt(s, t, i)
    ensures OccursAt(Lower(s), Lower(t), i)
  {
    assert forall k :: 0 <= k < |t| ==> Lower(s)[i + k] == LowerChar(s[i + k]) && s[i + k] == t[k];
    assert Lower(s)[i..i + |t|] == Lower(t);
  }

  /** `string.Join(sep, values)`. */
  function Join(values: seq<string>, sep: string): (r: string)
  {
    if |values| == 0 then ""
    else if |values| == 1 then values[0]
    else Join(values[..|values| - 1], sep) + sep + values[|values| - 1]
  }

  /** `s.Replace(c.ToString(), "")`: every occurrence of `c` removed. */
  function Without(s: string, c: char): (r: string)
  {
    if |s| == 0 then ""
    else if s[0] == c then Without(s[1..], c)
    else [s[0]] + Without(s[1..], c)
  }

  /** The removal leaves no `c` behind and keeps every other character. */
  lemma {:induction false} WithoutSpec(s: string, c: char)
    ensures c !in Without(s, c)
    ensures forall x :: x != c ==> (x in Without(s, c) <==> x in s)
    ensures |Without(s, c)| <= |s|
  {
    if |s| > 0 {
      WithoutSpec(s[1..], c);
      assert s == [s[0]] + s[1..];
    }
  }

  /** Removing from a concatenation removes from each part. */
  lemma {:induction false} WithoutAppend(a: string, b: string, c: char)
    ensures Without(a + b, c) == Without(a, c) + Without(b, c)
  {
    if |a| > 0 {
      assert (a + b)[1..] == a[1..] + b;
      WithoutAppend(a[1..], b, c);
    } else {
      assert a + b == b;
    }
  }

  /** A string that holds no `c` is left as it is. */
  lemma {:induction false} WithoutAbsent(s: string, c: char)
    requires c !in s
    ensures Without(s, c) == s
  {
    if |s| > 0 {
      assert c !in s[1..];
      WithoutAbsent(s[1..], c);
      assert s == [s[0]] + s[1..];
    }
  }

  /** Removing twice is removing once. */
  lemma WithoutIdempotent(s: string, c: char)
    ensures Without(Without(s, c), c) == Without(s, c)
  {
    WithoutSpec(s, c);
    WithoutAbsent(Without(s, c), c);
  }
}

=== FILE: tokens.dfy ===
/** The two places a JWT is kept: the in-memory `JwtTokenProvider` cell and
    the `"AuthToken"` entry of the device's local settings (`TokenService`). */
module TokenStores {
  import opened Values

  // ---- JwtTokenProvider: one nullable cell ----

  datatype TokenCell = TokenCell(token: Option<string>)

  /** A new provider holds no token. */
  function NewProvider(): (c: TokenCell)
    ensures GetTokenAsync(c) == None
  {
    TokenCell(None)
  }

  /** `GetTokenAsync`: a pure read of the whole state: the cell is exactly
      the token read, so the cell is the same afterwards. */
  function GetTokenAsync(c: TokenCell): (r: Option<string>)
    ensures c == TokenCell(r)
  {
    c.token
  }

  /** `SetTokenAsync`: the value (null included) is what the next read returns. */
  function SetTokenAsync(c: TokenCell, token: Option<string>): (r: TokenCell)
    ensures GetTokenAsync(r) == token
  {
    c.(token := token)
  }

  /** `ClearTokenAsync`: the next read returns null. */
  function ClearTokenAsync(c: TokenCell): (r: TokenCell)
    ensures GetTokenAsync(r) == None
  {
    c.(token := None)
  }

  /** The last write wins, whatever was written before. */
  lemma LastWriteWins(c: TokenCell, a: Option<string>, b: Option<string>)
    ensures SetTokenAsync(SetTokenAsync(c, a), b) == SetTokenAsync(c, b)
    ensures GetTokenAsync(SetTokenAsync(SetTokenAsync(c, a), b)) == b
  {
  }

  /** Clearing is setting null. */
  lemma ClearIsSetNull(c: TokenCell)
    ensures ClearTokenAsync(c) == SetTokenAsync(c, None)
  {
  }

  // ---- TokenService: one key of the local settings ----

  const TokenKey: string := "AuthToken"

  /** `ApplicationData.Current.LocalSettings`: the values map, or an access
      failure (the platform throws when the store cannot be reached). */
  datatype Storage = Available(values: map<string, Value>) | Unavailable

  /** The failure `SaveToken` and `ClearToken` rethrow. */
  datatype StorageFault = StorageAccessFailed

  /** The settings indexer: a missing key reads as null. */
  function Lookup(values: map<string, Value>, key: string): Value {
    if key in values then values[key] else Null
  }

  /** `m` and `m'` agree on every key other than `key`. */
  ghost predicate SameExcept(m: map<string, Value>, m': map<string, Value>, key: string) {
    forall k :: k != key ==> (k in m <==> k in m') && (k in m ==> m[k] == m'[k])
  }

  /** `Values[TokenKey] as string`: only a string entry is a token. An access
      failure is caught, so it reads as null too. */
  function StoredToken(st: Storage): (r: Option<string>)
    ensures st.Unavailable? ==> r.None?
    ensures st.Available? ==> (r.Some? <==> Lookup(st.values, TokenKey).Str?)
    ensures r.Some? ==> Lookup(st.values, TokenKey) == Str(r.value)
  {
    match st
    case Unavailable => None
    case Available(values) =>
      match Lookup(values, TokenKey)
      case Str(s) => Some(s)
      case _ => None
  }

  /** `GetToken`: the stored string, or null when the entry is missing, is
      not a string, or the settings cannot be reached. A read never changes the
      settings, and saving back the token just read changes nothing. */
  function GetToken(st: Storage): (r: Option<string>)
    ensures r.Some? ==> st.Available? && SaveToken(st, r.value) == Ok(st)
    ensures st.Available? && Lookup(st.values, TokenKey).Str? ==> r == Some(Lookup(st.values, TokenKey).s)
    ensures st.Available? && TokenKey !in st.values ==> r.None?
  {
    var r := StoredToken(st);
    if r.Some? then
      assert st.values[TokenKey := Str(r.value)] == st.values;
      r
    else r
  }

  /** `SaveToken`: writes the entry and nothing else; an access failure is rethrown. */
  function SaveToken(st: Storage, token: string): (r: Result<Storage, StorageFault>)
    ensures st.Unavailable? <==> r.Err?
    ensures r.Ok? ==> r.value.Available?
    ensures r.Ok? ==> Lookup(r.value.values, TokenKey) == Str(token)
    ensures r.Ok? ==> TokenKey in r.value.values
    ensures r.Ok? ==> SameExcept(st.values, r.value.values, TokenKey)
  {
    match st
    case Unavailable => Err(StorageAccessFailed)
    case Available(values) => Ok(Available(values[TokenKey := Str(token)]))
  }

  /** `ClearToken`: removes the entry and nothing else; an access failure is rethrown. */
  function ClearToken(st: Storage): (r: Result<Storage, StorageFault>)
    ensures st.Unavailable? <==> r.Err?
    ensures r.Ok? ==> r.value.Available? && TokenKey !in r.value.values
    ensures r.Ok? ==> SameExcept(st.values, r.value.values, TokenKey)
  {
    match st
    case Unavailable => Err(StorageAccessFailed)
    case Available(values) => Ok(Available(values - {TokenKey}))
  }

  /** `HasToken`: a non-null, non-empty token is stored. */
  function HasToken(st: Storage): (r: bool)
    ensures r <==> GetToken(st).Some? && |GetToken(st).value| > 0
    ensures r ==> exists t :: Lookup(st.values, TokenKey) == Str(t) && |t| > 0
  {
    var t := GetToken(st);
    t.Some? && |t.value| > 0
  }

  /** Reading after a successful save returns the saved token. */
  lemma GetAfterSave(st: Storage, token: string)
    requires st.Available?
    ensures SaveToken(st, token).Ok?
    ensures GetToken(SaveToken(st, token).value) == Some(token)
    ensures HasToken(SaveToken(st, token).value) <==> |token| > 0
  {
  }

  /** After a successful clear there is no token. */
  lemma GetAfterClear(st: Storage)
    requires st.Available?
    ensures ClearToken(st).Ok?
    ensures GetToken(ClearToken(st).value) == None
    ensures !HasToken(ClearToken(st).value)
  {
  }

  /** An entry of another type under the key is not a token. */
  lemma NonStringEntryReadsNull(values: map<string, Value>)
    requires TokenKey in values && !values[TokenKey].Str?
    ensures GetToken(Available(values)) == None
    ensures !HasToken(Available(values))
  {
  }

  /** When the settings cannot be reached, reads degrade to "no token" while
      writes report the failure. */
  lemma StorageFailureBehaviour(token: string)
    ensures GetToken(Unavailable) == None
    ensures !HasToken(Unavailable)
    ensures SaveToken(Unavailable, token) == Err(StorageAccessFailed)
    ensures ClearToken(Unavailable) == Err(StorageAccessFailed)
  {
  }

  /** Saving over a saved token replaces it, and other entries survive both writes. */
  lemma SaveTwiceKeepsLast(st: Storage, a: string, b: string)
    requires st.Available?
    ensures var once := SaveToken(st, a).value;
      && SaveToken(once, b).Ok?
      && GetToken(SaveToken(once, b).value) == Some(b)
      && SameExcept(st.values, SaveToken(once, b).value.values, TokenKey)
  {
  }
}

=== FILE: values.dfy ===
/** Nullable references, success-or-exception results and the boxed `object`
    values that flow through the converters and the local settings store. */
module Values {

  /** A C# reference that may be null: `None` is null. */
  datatype Option<+T> = None | Some(value: T)

  /** The outcome of a call that either returns or throws. */
  datatype Result<+T, +E> = Ok(value: T) | Err(error: E)

  /** The three numeric types the decimal converter formats. Doubles are kept
      as their exact real value: NaN, infinities and rounding are not modelled. */
  datatype Numeric = DecimalNum(d: real) | DoubleNum(x: real) | Int32Num(i: int)

  /** A boxed `object`. `Other` stands for a value of any further type and
      carries the text its `ToString()` override returns. */
  datatype Value =
    | Null
    | Str(s: string)
    | Bool(b: bool)
    | Number(n: Numeric)
    | Other(text: string)

  /** 10 to the power `n`. */
  function Pow10(n: nat): (r: nat)
    ensures r >= 1
  {
    if n == 0 then 1 else 10 * Pow10(n - 1)
  }
}
